=== FILE: README.md ===
# Akash Terraform provider: command builder, transaction poller and configuration

This project models the core of a Terraform provider for the Akash network. The
provider does its work by running the `provider-services` program. The model covers:

- **The command builder** (package `cli`, module `Cli`). A command is an append-only
  list of string tokens, with the program first. Every builder method appends one token
  or a flag/value pair. Six options and the sign mode are skipped when an overriding
  environment variable (`AKASH_NODE`, `AKASH_CHAIN_ID`, ...) is present. The environment
  is the set of variable names present in the provider's process.
- **Transaction records** (package `types`, module `Types`). The failure test, the
  first-match attribute lookup and the event filter.
- **The client** (file client.go, module `Client`). The client is its configuration, a
  submission queue of capacity 100, a confirmation poller and one worker that serves the
  queue in order.
  - The poller's 90-second timer is modelled as the list of responses to the polls
    that start before it fires.
  - The caller's 30-second timer is one input per request: whether the caller is still
    waiting when the first result is sent.
- **Deployment and lease operations** (files deployment.go and lease.go, modules
  `Deployments` and `Leases`):
  - the exact token list of every command they build, for any configuration and
    environment;
  - the outcome of each operation, given the process outputs and what they decode to.
- **Provider configuration** (file provider.go, module `Akash`). This covers:
  - the schema of settings and their defaults;
  - the check that every required setting is non-empty, which reports one diagnostic;
  - the client built from the settings.

Running the program and decoding its JSON output are inputs. A `Result` says whether the
output decoded, and into what record. Module `Errors` holds the `Option`/`Result`/`Error`
types; a Go `error` is an `Option<Error>` with `None` for nil. Module `Format` renders and
parses Go's `%d` for the fee token.

`AkashProviderConfiguration` in client.go:19-30 has no `DepositorAccount` or `FeeAccount`
field, yet provider.go:137-138 sets them and deployment.go:63-68 reads them. The model's
`Client.Configuration` carries both, as the callers use them.

## Model

| member | source | states |
|---|---|---|
| Cli.AkashCli | akash/client/cli/cli.go:27-38 | A new command holds only the program: the configured path, or `provider-services` when the path is empty. The program token is never empty, and no block height is set. |
| Cli.Append | akash/client/cli/cli.go:228-231 | Adds exactly one token at the end. The previous tokens remain an unchanged prefix, and the block height is kept. |
| Cli.Tx | akash/client/cli/cli.go:40-42 | Appends exactly the token `tx`. |
| Cli.Query | akash/client/cli/cli.go:44-46 | Appends exactly `query`. |
| Cli.SetHash | akash/client/cli/cli.go:48-50 | Appends the hash as one token. |
| Cli.QueryTx | akash/client/cli/cli.go:52-54 | Appends `tx`, the same token as `Tx`. |
| Cli.Deployment | akash/client/cli/cli.go:56-58 | Appends exactly `deployment`. |
| Cli.Get | akash/client/cli/cli.go:60-62 | Appends exactly `get`. |
| Cli.Create | akash/client/cli/cli.go:64-66 | Appends exactly `create`. |
| Cli.Update | akash/client/cli/cli.go:68-70 | Appends exactly `update`. |
| Cli.LeaseStatus | akash/client/cli/cli.go:72-74 | Appends exactly `lease-status`. |
| Cli.SendManifest | akash/client/cli/cli.go:76-78 | Appends `send-manifest` and then the path: two tokens, in that order. |
| Cli.Close | akash/client/cli/cli.go:80-82 | Appends exactly `close`. |
| Cli.Market | akash/client/cli/cli.go:84-86 | Appends exactly `market`. |
| Cli.Provider | akash/client/cli/cli.go:88-90 | Appends exactly `provider`. |
| Cli.Node | akash/client/cli/cli.go:92-94 | Appends exactly `node`. |
| Cli.Status | akash/client/cli/cli.go:96-98 | Appends exactly `status`. |
| Cli.Bid | akash/client/cli/cli.go:100-102 | Appends exactly `bid`. |
| Cli.List | akash/client/cli/cli.go:104-106 | Appends exactly `list`. |
| Cli.Lease | akash/client/cli/cli.go:108-110 | Appends exactly `lease`. |
| Cli.Manifest | akash/client/cli/cli.go:112-114 | Appends the manifest path as one token, with no flag before it. |
| Cli.SetDseq | akash/client/cli/cli.go:118-120 | Appends two tokens, the flag `--dseq` and then the value. |
| Cli.SetOseq | akash/client/cli/cli.go:122-124 | Appends `--oseq` and then the value. |
| Cli.SetGseq | akash/client/cli/cli.go:126-128 | Appends `--gseq` and then the value. |
| Cli.SetProvider | akash/client/cli/cli.go:130-132 | Appends `--provider` and then the value. |
| Cli.SetHome | akash/client/cli/cli.go:134-136 | Appends `--home` and then the value. |
| Cli.SetOwner | akash/client/cli/cli.go:138-140 | Appends `--owner` and then the value. |
| Cli.SetFees | akash/client/cli/cli.go:142-144 | Appends `--fees`, then one token made of the amount's decimal text and `uakt`. |
| Cli.SetFrom | akash/client/cli/cli.go:146-148 | Appends `--from` and then the key name. |
| Cli.GasAuto | akash/client/cli/cli.go:150-155 | Appends `--gas=auto` exactly when `AKASH_GAS` is absent. It returns the command unchanged when the variable is present. |
| Cli.SetGasAdjustment | akash/client/cli/cli.go:156-161 | Appends the single `--gas-adjustment=` token exactly when `AKASH_GAS_ADJUSTMENT` is absent. Otherwise it is the identity. |
| Cli.SetGasPrices | akash/client/cli/cli.go:163-168 | Appends the fixed `--gas-prices=0.025uakt` exactly when `AKASH_GAS_PRICES` is absent. Otherwise it is the identity. |
| Cli.SetChainId | akash/client/cli/cli.go:170-175 | Appends `--chain-id` and the value exactly when `AKASH_CHAIN_ID` is absent. Otherwise it is the identity. |
| Cli.SetNode | akash/client/cli/cli.go:177-182 | Appends `--node` and the value exactly when `AKASH_NODE` is absent. Otherwise it is the identity. |
| Cli.SetKeyringBackend | akash/client/cli/cli.go:184-189 | Appends `--keyring-backend` and the value exactly when `AKASH_KEYRING_BACKEND` is absent. Otherwise it is the identity. |
| Cli.SetNote | akash/client/cli/cli.go:191-193 | Appends one token: the note in double quotes after `--note=`. |
| Cli.SetDepositorAccount | akash/client/cli/cli.go:195-197 | Appends `--depositor-account` and then the account. |
| Cli.SetSignMode | akash/client/cli/cli.go:199-214 | Appends `--sign-mode` and the mode exactly when `AKASH_SIGN_MODE` is absent and the mode is `default` or `amino-json`. In every other case the command is returned unchanged. |
| Cli.AutoAccept | akash/client/cli/cli.go:216-218 | Appends exactly `-y`. |
| Cli.OutputJson | akash/client/cli/cli.go:220-222 | Appends `-o` and then `json`. |
| Cli.Headless | akash/client/cli/cli.go:224-226 | The arguments are all tokens after the program name, one fewer than the command holds. Putting the program back in front gives the command again. |
| Cli.SetBlockHeight | akash/client/cli/cli.go:233-235 | Setting the block height leaves the tokens untouched. |
| Cli.GetBlockHeight | akash/client/cli/cli.go:237-239 | Reads the height last set, `""` when none was. `BlockHeightRoundTrip` states that it returns the height set, through later appends and builder steps. |
| Cli.AppendKeepsPrefix | akash/client/cli/cli.go:228-231 | Appending never disturbs an existing prefix of the token list. |
| Cli.HeadlessOfBuilt | akash/client/cli/cli.go:224-226 | For a command built from `AkashCli`, the arguments handed to the program are exactly the tokens appended after it. |
| Cli.GuardsIndependent | akash/client/cli/cli.go:150-214 | Each guard is independent of the others. Two environments that agree on an option's own override variable give that option the same result, whatever other variables either holds. |
| Cli.FeesTokenReadsBack | akash/client/cli/cli.go:142-144 | The fee token ends in `uakt`, and the text before that parses back to exactly the amount, sign included. |
| Cli.BlockHeightRoundTrip | akash/client/cli/cli.go:233-239 | The height read back is the height set. It survives later appends, both `Append` and builder steps such as a guarded `SetNode` followed by `OutputJson`; every builder step's own contract also keeps the height. The tokens are unchanged by setting it. |
| Format.NatToDecimal | akash/client/cli/cli.go:143 | `%d` of a non-negative number is a non-empty run of digits, with no leading zero unless the number is 0. |
| Format.ParseNatToDecimal | akash/client/cli/cli.go:143 | Parsing the digits `%d` writes gives the number back. |
| Format.DecimalRoundTrip | akash/client/cli/cli.go:143 | Parsing `%d` of any integer gives it back. The text starts with `-` exactly when the number is negative. |
| Format.DecimalInjective | akash/client/cli/cli.go:143 | Different amounts give different fee texts. |
| Types.Failed | akash/client/types/transactions.go:38-40 | A record is failed exactly when it has no logs, whatever its other fields hold. |
| Types.Get | akash/client/types/transactions.go:28-36 | If some attribute has the key, the value is that of the first attribute with it, and there is no error. If none has it, the result is `""` with "attribute not found". |
| Types.OfTypeConcat | akash/client/types/transactions.go:47-55 | Filtering two lists of events one after the other gives the filter of their concatenation, which is how the loop accumulates log by log. |
| Types.GetEventsByType | akash/client/types/transactions.go:42-56 | The result is the events of the requested type across all logs, in log-major and then event order. It is empty when there are no logs. |
| Types.OfTypeMembers | akash/client/types/transactions.go:47-55 | An event is in the result exactly when it occurs in the logs and has the requested type. |
| Types.OfTypeCounts | akash/client/types/transactions.go:47-55 | Every matching occurrence is kept, as often as it repeats, and no event of another type is kept. |
| Types.OfTypeLength | akash/client/types/transactions.go:50-52 | The filter never returns more events than it is given. |
| Types.AllEventsLength | akash/client/types/transactions.go:48-49 | Walking the logs and then their events visits the total number of events. |
| Types.EventsByTypeBound | akash/client/types/transactions.go:47-55 | The result is no longer than the total number of events across all logs. |
| Client.New | akash/client/client.go:44-54 | A new client keeps the configuration it was given, has an empty submission queue of capacity 100, and has no note. |
| Client.GetPath | akash/client/client.go:36-38 | The path is the configured one, so a command started from it runs the configured program, or `provider-services` when the path is empty. |
| Client.SetGlobalTransactionNote | akash/client/client.go:40-42 | Sets the note and leaves the configuration and the queue as they were. |
| Client.Enqueue | akash/client/client.go:99-102 | A request joins the back of the queue exactly when there is room. The requests already queued keep their order. A full queue blocks the sender until the worker's next receive. |
| Client.EnqueueBounded | akash/client/client.go:48 | The queue never grows beyond its capacity. |
| Client.Receive | akash/client/client.go:57 | The worker's receive takes the front request and leaves the rest of the queue in order, with the configuration, note and capacity kept. |
| Client.ReceiveFreesSlot | akash/client/client.go:48-57 | After one receive from a queue within its capacity, a send succeeds again, so a full queue is full only until the worker receives. |
| Client.ReceiveEnqueueCommute | akash/client/client.go:57-102 | The queue is first in, first out: receiving before or after a request joins the back takes the same front request and leaves the same queue. |
| Client.EnqueueThenReceive | akash/client/client.go:57-102 | A request sent to an empty queue is the next one received. |
| Client.EnqueueAll | akash/client/client.go:99-102 | Sends one after another all succeed exactly when they fit in the remaining capacity, and the queue then ends with them in the order sent. |
| Client.Drain | akash/client/client.go:57 | Receiving until the queue is empty yields exactly the queued requests, front first. |
| Client.PollCommand | akash/client/client.go:78-80 | The poll runs `query tx <hash>`, then `--node` unless `AKASH_NODE` is set, then `-o json`. |
| Client.Judge | akash/client/client.go:88-92 | A decoded record confirms the transaction exactly when it has logs; otherwise it is rejected with its raw log. A decoded record never times out. |
| Client.VerdictError | akash/client/client.go:75-92 | Nil exactly for a confirmation, "transaction failed: <raw log>" for a rejection, and the timeout error for a timeout. |
| Client.VerdictErrorInjective | akash/client/client.go:75-92 | The error tells the verdict back: a rejection's message is never the timeout's, and two rejections report the same message only for the same raw log. |
| Client.Poll | akash/client/client.go:69-95 | An undecodable response only leads to one more poll after a backoff. The first decoded record ends polling: transaction failed with its raw log if it has no logs, confirmed otherwise. The result is a timeout exactly when no response decodes before the timer fires. |
| Client.FirstDecodedExists | akash/client/client.go:83-92 | When any response decodes, there is a first one, and it decides the outcome. |
| Client.WaitForTx | akash/client/client.go:69-95 | The loop returns exactly the poller's verdict as an error: nil when confirmed, "transaction failed: <raw log>" when failed, the timeout otherwise. It sleeps once per undecodable response and runs the same poll command every time. |
| Client.ServeAsWritten | akash/client/client.go:57-66 | The loop body as written. A successful handler is served exactly as intended: its id is polled, the one result sent is the poller's verdict, and the channel is closed. A failing handler runs, its error is sent, and then its id is polled, in that order. When the caller still reads, the error and then the verdict are sent, the second send being the fourth action, and the channel is closed. When the caller has left, only the error is sent, the worker ends blocked on sending the verdict, and the channel is never closed. |
| Client.Serve | akash/client/client.go:56-67 | Corrected loop body. There is exactly one result per request, and the worker never blocks. The handler runs first, the one send of that result is the only send and comes just before the channel is closed, last. A handler error is the result and nothing is polled. Otherwise polling the handler's id is the second action, and the verdict is sent. |
| Client.Work | akash/client/client.go:57-66 | The worker serves the queue front to back, one request at a time: its trace is each served request's actions, tagged with the request's position, one request after another. So the trace never returns to an earlier request. It stops for good at the first request whose service blocks. |
| Client.TraceInOrder | akash/client/client.go:57-66 | A worker trace visits the services in order: the request positions never go back, and every event belongs to one of the services. |
| Client.WorkServesAll | akash/client/client.go:57-66 | With the corrected loop body, every queued request is served. |
| Client.ServedInSendOrder | akash/client/client.go:57-102 | Up to 100 requests sent to a new client all fit in its queue, and the worker receives and serves them in the order they were sent. |
| Client.WaitForTransaction | akash/client/client.go:97-113 | The caller gets the error of the first result it receives: the handler's error, or the poller's verdict. When its own timer fires first, it gets the timeout. |
| Client.HandlerFailureSendsTwice | akash/client/client.go:58-65 | As written, a failing handler's error is sent first, and the returned id is polled anyway. A second result follows when the caller still reads. When the caller has left, the second send blocks forever. |
| Client.AsWrittenWorkerStalls | akash/client/client.go:58-65 | A failing request whose caller has left stalls the worker as written. The request queued after it is never served, while the corrected worker serves both. |
| Client.CallerSeesSameResult | akash/client/client.go:58-65 | The correction does not change what any caller receives. |
| Deployments.DefaultGas | akash/client/deployment.go:57 | Appends the gas tokens supplied for `DefaultGas()`, after everything already built. |
| Deployments.SetFeeAccount | akash/client/deployment.go:68 | Appends the tokens supplied for `SetFeeAccount`, after everything already built. |
| Deployments.GetDeploymentCommand | akash/client/deployment.go:21-23 | The exact tokens: `query deployment get --owner o --dseq d`, then chain id and node unless overridden, then `-o json`. |
| Deployments.CreateDeploymentCommand | akash/client/deployment.go:55-71 | The exact tokens of the create command. `--depositor-account` appears only for a non-empty depositor account, and the fee-account tokens only for a non-empty fee account. Both come before `-o json`. |
| Deployments.QueryTxCommand | akash/client/deployment.go:90-92 | The follow-up query is the program, `query`, `tx` and the hash, then `--node` and the node unless `AKASH_NODE` is present, then `-o` and `json`. |
| Deployments.QueryTxIsPollCommand | akash/client/deployment.go:90-92 | The follow-up query is the very command the confirmation poller runs. |
| Deployments.DeleteDeploymentCommand | akash/client/deployment.go:105-111 | The exact tokens of the close command, for every configuration and environment. |
| Deployments.DeleteCommandPrefix | akash/client/deployment.go:106-107 | The close command begins `[program, tx, deployment, close, --dseq, d, --owner, o, --from, key]`. |
| Deployments.UpdateDeploymentCommand | akash/client/deployment.go:129-136 | The exact tokens of the update command, for every configuration and environment. |
| Deployments.UpdateSignMode | akash/client/deployment.go:136 | The update command contains `--sign-mode amino-json` exactly when `AKASH_SIGN_MODE` is absent, whatever values are configured. |
| Deployments.DecodeHandler | akash/client/deployment.go:75-80 | The handler succeeds exactly when the output decodes. It then returns the record's hash, and otherwise `""` with the decode error. |
| Deployments.SubmitSucceeds | akash/client/deployment.go:75-83 | A submission succeeds exactly when the caller still waits, the output decodes, and polling confirms. |
| Deployments.TransactionCreateDeployment | akash/client/deployment.go:55-103 | Succeeds exactly when the submission succeeds, the submitted record has logs, and the re-query decodes with logs. It then returns the first event's attributes. Otherwise it returns, in that order, the worker's error, "transaction failed: <raw log>", the re-query's error, or "no transaction logs found". |
| Deployments.ValueOrEmpty | akash/client/deployment.go:45-47 | The first matching attribute's value, or `""` when no attribute has the key. |
| Deployments.CreateDeployment | akash/client/deployment.go:34-52 | On success, the three sequence numbers are the first `dseq`, `gseq` and `oseq` attribute values, with a missing one read as `""`. On failure it returns the underlying error. |
| Deployments.DeleteDeployment | akash/client/deployment.go:105-127 | Closing succeeds exactly when the caller still waits, the output decodes, and polling confirms. Otherwise the error is the decode error, the timeout when the caller has left, or the poller's verdict: "transaction failed: <raw log>" for a failed record, the poll timeout when nothing decoded. |
| Deployments.UpdateDeployment | akash/client/deployment.go:129-153 | Updating succeeds exactly when the caller still waits, the output decodes, and polling confirms. Otherwise the error is the decode error, the timeout when the caller has left, or the poller's verdict: "transaction failed: <raw log>" for a failed record, the poll timeout when nothing decoded. |
| Leases.CreateLeaseCommand | akash/client/lease.go:11-15 | The exact tokens of the create-lease command, for every configuration and environment. |
| Leases.LeaseCommandPrefix | akash/client/lease.go:11-13 | The command begins `tx market lease create` with the bid's dseq, gseq, oseq and provider, then `--owner` with the account address and `--from` with the key name. |
| Leases.LeaseHandler | akash/client/lease.go:21-37 | The handler returns the decoded hash exactly when the run and both decodes succeed. Otherwise it returns `""` and the error of the first stage that failed. |
| Leases.CreateLease | akash/client/lease.go:10-43 | Returns the raw output with no error exactly when the submission went through. Otherwise it returns `""` and the error: the timeout, a stage's error, or the poller's verdict. |
| Akash.Schema | akash/provider.go:27-91 | The schema declares exactly the ten validated settings and the two optional accounts. |
| Akash.SchemaDefaults | akash/provider.go:28-80 | The defaults are: keyring backend `os`, network `mainnet`, path `provider-services`, home `<home dir>/.akash`, and the providers API address. Key name, account address and node default to `""`. |
| Akash.MissingParameter | akash/provider.go:153-157 | A missing setting is reported as an error diagnostic with the summary "Unable to create Akash client". |
| Akash.MissingParameterNamesKey | akash/provider.go:156 | The diagnostic's detail names the setting: the key reads back from it, so different settings give different diagnostics. |
| Akash.ValidateConfiguration | akash/provider.go:150-164 | The map is valid exactly when every value is non-empty, and then the diagnostics returned are empty. Otherwise exactly one diagnostic is appended, naming some key whose value is empty. |
| Akash.GetString | akash/provider.go:107-116 | A setting reads as its value, or `""` when it was never set. |
| Akash.ValidatedConfig | akash/provider.go:106-117 | The validated map has exactly the ten keys from `key_name` to `providers_api`, each with the setting's value. |
| Akash.ConfigurationOf | akash/provider.go:126-139 | The client configuration takes each validated setting from the map. It takes the two accounts straight from the settings. |
| Akash.AccountsNotValidated | akash/provider.go:137-138 | The depositor and fee accounts are not validated. Whatever they hold, empty included, the validated settings are the same. |
| Akash.ProviderConfigure | akash/provider.go:103-148 | A client is built exactly when none of the ten validated settings is empty. It then holds those settings and the two accounts, an empty queue of capacity 100, and the note "Akash Terraform Provider", with no diagnostics. Otherwise the one diagnostic names an empty validated setting. |

## Left out

- Running `provider-services` (`Raw`, `DecodeJson`) is not modelled. Each process output and its decoded record is an input `Result`.
- `DefaultGas` and `SetFeeAccount` are called but not defined in the modelled files. The tokens they append are parameters (`Deployments.Externals`).
- Goroutines, channels and timers are not modelled as such. The worker is a sequential fold over the queue. The 90-second poll timer is the finite list of poll responses, and the 500 ms sleep is one step of it. The caller's 30-second timer is the per-request input `callerReads`.
- Client.Enqueue: does not model the caller blocking while the queue is full. `None` stands for that wait, which has no timeout in the code. How the worker's receives interleave in time with callers' sends is not modelled either. `Client.Receive` frees a slot, but `Client.Work` runs over the queue's contents as they stand.
- Go's `%2f` rendering of a `float32` in `SetGasAdjustment` is not modelled. The argument carries its rendered text (`Cli.Float32`), and the model only states where the token goes.
- Logging (`tflog`) is not modelled, including the error logged for an unsupported sign mode. It has no effect on results.
- The Terraform SDK is not modelled: schema wiring, resource and data-source maps, `EnvDefaultFunc`, and how `ResourceData` resolves a setting. The model takes the resolved settings as a map, and the schema as data.
- Go map iteration order in `validateConfiguration` is not modelled. The loop picks any remaining key, so the model states only that some empty key is reported.
- Go slice aliasing between commands built from the same base (the value-receiver `append`) is not modelled. The model's token lists are immutable.
- `GetDeployments` is not modelled, because it panics unconditionally.
- `GetDeployment`'s decoded result is not modelled; only its command is. The `Deployment` record type is not part of this model.
- JSON decoding into an already-filled record is not modelled. In `transactionCreateDeployment` the re-query decodes into the same record, and `CreateLease` decodes the same output twice into one record. The model takes the second decode's result as an input and does not merge fields absent from the output.
- Cli.Headless: requires a non-empty command. `Content[1:]` panics on an empty one, and every command `AkashCli` starts holds the program.
- Deployments.TransactionCreateDeployment: requires the first log of the re-queried record to hold an event. The code indexes `Events[0]` without a check and would panic.
- Deployments.CreateDeployment: carries the same requires, because it calls `TransactionCreateDeployment` (deployment.go:37) and inherits its `Events[0]` panic.
- The types in node_status.go and tx_worker.go are not part of this model. The request and result records are folded into `Client.TxRequest` and `Client.TxResult`.

## Findings

| source | as written | input that shows it | evidently intended | confidence | as-written member | corrected member |
|---|---|---|---|---|---|---|
| akash/client/client.go:58-65 | After sending the handler's error, the loop does not `continue`. It polls the empty transaction id and sends a second result on the capacity-1 channel. | A request whose handler fails and whose caller has already timed out: the buffer holds the first result, so the second send blocks the worker forever. Every later request in the queue is never served. | A handler error is the request's only result, and the worker moves on to the next request. | not executed | Client.AsWrittenWorkerStalls | Client.WorkServesAll |

=== FILE: cli.dfy ===
/** The `provider-services` command builder (package `cli`).
    A command is an append-only list of string tokens with the program first; every
    builder method returns the command with its tokens appended. Some options are
    skipped when an environment variable overrides them; the environment is the set
    of variable names present in the provider's process. */
module Cli {
  import opened Errors
  import opened Format

  /** Names of the environment variables present in the provider's process. */
  type Env = set<string>

  /** Program name used when the client's configured path is empty. */
  const DefaultProgram := "provider-services"

  /** Sign modes `SetSignMode` accepts. */
  const SupportedSignModes: set<string> := {"default", "amino-json"}

  /** A float32 argument, carried as the text Go's `%2f` verb renders for it. */
  datatype Float32 = Float32(formatted: string)

  /** A command under construction: its tokens (program first) and the block height
      a caller may attach to it. */
  datatype Command = Command(content: seq<string>, blockHeight: string)

  /** The program a client with this configured path runs. */
  function Program(path: string): string
  {
    if path == "" then DefaultProgram else path
  }

  /** The option tokens, unless the environment variable overriding them is present. */
  function Unless(env: Env, variable: string, tokens: seq<string>): seq<string>
  {
    if variable in env then [] else tokens
  }

  /** The token `SetFees` gives its amount: the decimal amount followed by the unit. */
  function FeesToken(amount: Int64): string
  {
    Decimal(amount as int) + "uakt"
  }

  /** The token `SetNote` gives its note: the note in double quotes after `--note=`. */
  function NoteToken(note: string): string
  {
    "--note=\"" + note + "\""
  }

  /** A fresh command holding only the program: the client's path, or the default
      program name when the path is empty. */
  function AkashCli(path: string): (c: Command)
    ensures c.content == [if path == "" then DefaultProgram else path]
    ensures c.content[0] != ""
    ensures c.blockHeight == ""
  {
    Command([Program(path)], "")
  }

  /** The one primitive every builder method uses: one more token at the end, nothing
      else touched. */
  function Append(c: Command, token: string): (r: Command)
    ensures r.content == c.content + [token]
    ensures r.content[..|c.content|] == c.content
    ensures r.blockHeight == c.blockHeight
  {
    Command(c.content + [token], c.blockHeight)
  }

  // ---------------------------------------------------------------------------
  // Subcommands

  function Tx(c: Command): (r: Command)
    ensures r.content == c.content + ["tx"]
    ensures r.blockHeight == c.blockHeight
  {
    Append(c, "tx")
  }

  function Query(c: Command): (r: Command)
    ensures r.content == c.content + ["query"]
    ensures r.blockHeight == c.blockHeight
  {
    Append(c, "query")
  }

  /** The hash goes in as a bare positional argument. */
  function SetHash(c: Command, hash: string): (r: Command)
    ensures r.content == c.content + [hash]
    ensures r.blockHeight == c.blockHeight
  {
    Append(c, hash)
  }

  /** The `tx` subcommand of `query`: the same token as `Tx`. */
  function QueryTx(c: Command): (r: Command)
    ensures r.content == c.content + ["tx"]
    ensures r.blockHeight == c.blockHeight
  {
    Append(c, "tx")
  }

  function Deployment(c: Command): (r: Command)
    ensures r.content == c.content + ["deployment"]
    ensures r.blockHeight == c.blockHeight
  {
    Append(c, "deployment")
  }

  function Get(c: Command): (r: Command)
    ensures r.content == c.content + ["get"]
    ensures r.blockHeight == c.blockHeight
  {
    Append(c, "get")
  }

  function Create(c: Command): (r: Command)
    ensures r.content == c.content + ["create"]
    ensures r.blockHeight == c.blockHeight
  {
    Append(c, "create")
  }

  function Update(c: Command): (r: Command)
    ensures r.content == c.content + ["update"]
    ensures r.blockHeight == c.blockHeight
  {
    Append(c, "update")
  }

  function LeaseStatus(c: Command): (r: Command)
    ensures r.content == c.content + ["lease-status"]
    ensures r.blockHeight == c.blockHeight
  {
    Append(c, "lease-status")
  }

  function SendManifest(c: Command, path: string): (r: Command)
    ensures r.content == c.content + ["send-manifest", path]
    ensures r.blockHeight == c.blockHeight
  {
    Append(Append(c, "send-manifest"), path)
  }

  function Close(c: Command): (r: Command)
    ensures r.content == c.content + ["close"]
    ensures r.blockHeight == c.blockHeight
  {
    Append(c, "close")
  }

  function Market(c: Command): (r: Command)
    ensures r.content == c.content + ["market"]
    ensures r.blockHeight == c.blockHeight
  {
    Append(c, "market")
  }

  function Provider(c: Command): (r: Command)
    ensures r.content == c.content + ["provider"]
    ensures r.blockHeight == c.blockHeight
  {
    Append(c, "provider")
  }

  function Node(c: Command): (r: Command)
    ensures r.content == c.content + ["node"]
    ensures r.blockHeight == c.blockHeight
  {
    Append(c, "node")
  }

  function Status(c: Command): (r: Command)
    ensures r.content == c.content + ["status"]
    ensures r.blockHeight == c.blockHeight
  {
    Append(c, "status")
  }

  function Bid(c: Command): (r: Command)
    ensures r.content == c.content + ["bid"]
    ensures r.blockHeight == c.blockHeight
  {
    Append(c, "bid")
  }

  function List(c: Command): (r: Command)
    ensures r.content == c.content + ["list"]
    ensures r.blockHeight == c.blockHeight
  {
    Append(c, "list")
  }

  function Lease(c: Command): (r: Command)
    ensures r.content == c.content + ["lease"]
    ensures r.blockHeight == c.blockHeight
  {
    Append(c, "lease")
  }

  /** The manifest file goes in as a bare positional argument. */
  function Manifest(c: Command, path: string): (r: Command)
    ensures r.content == c.content + [path]
    ensures r.blockHeight == c.blockHeight
  {
    Append(c, path)
  }

  // ---------------------------------------------------------------------------
  // Options

  function SetDseq(c: Command, dseq: string): (r: Command)
    ensures r.content == c.content + ["--dseq", dseq]
    ensures r.blockHeight == c.blockHeight
  {
    Append(Append(c, "--dseq"), dseq)
  }

  function SetOseq(c: Command, oseq: string): (r: Command)
    ensures r.content == c.content + ["--oseq", oseq]
    ensures r.blockHeight == c.blockHeight
  {
    Append(Append(c, "--oseq"), oseq)
  }

  function SetGseq(c: Command, gseq: string): (r: Command)
    ensures r.content == c.content + ["--gseq", gseq]
    ensures r.blockHeight == c.blockHeight
  {
    Append(Append(c, "--gseq"), gseq)
  }

  function SetProvider(c: Command, provider: string): (r: Command)
    ensures r.content == c.content + ["--provider", provider]
    ensures r.blockHeight == c.blockHeight
  {
    Append(Append(c, "--provider"), provider)
  }

  function SetHome(c: Command, home: string): (r: Command)
    ensures r.content == c.content + ["--home", home]
    ensures r.blockHeight == c.blockHeight
  {
    Append(Append(c, "--home"), home)
  }

  function SetOwner(c: Command, owner: string): (r: Command)
    ensures r.content == c.content + ["--owner", owner]
    ensures r.blockHeight == c.blockHeight
  {
    Append(Append(c, "--owner"), owner)
  }

  /** The fee is one token: the amount in decimal with the `uakt` unit glued on. */
  function SetFees(c: Command, amount: Int64): (r: Command)
    ensures r.content == c.content + ["--fees", FeesToken(amount)]
    ensures r.blockHeight == c.blockHeight
  {
    Append(Append(c, "--fees"), FeesToken(amount))
  }

  function SetFrom(c: Command, key: string): (r: Command)
    ensures r.content == c.content + ["--from", key]
    ensures r.blockHeight == c.blockHeight
  {
    Append(Append(c, "--from"), key)
  }

  /** Skipped when `AKASH_GAS` is set. */
  function GasAuto(c: Command, env: Env): (r: Command)
    ensures r.content == c.content + Unless(env, "AKASH_GAS", ["--gas=auto"])
    ensures "AKASH_GAS" in env ==> r == c
    ensures r.blockHeight == c.blockHeight
  {
    if "AKASH_GAS" !in env then Append(c, "--gas=auto") else c
  }

  /** Skipped when `AKASH_GAS_ADJUSTMENT` is set. */
  function SetGasAdjustment(c: Command, env: Env, adjustment: Float32): (r: Command)
    ensures r.content == c.content + Unless(env, "AKASH_GAS_ADJUSTMENT", ["--gas-adjustment=" + adjustment.formatted])
    ensures "AKASH_GAS_ADJUSTMENT" in env ==> r == c
    ensures r.blockHeight == c.blockHeight
  {
    if "AKASH_GAS_ADJUSTMENT" !in env then Append(c, "--gas-adjustment=" + adjustment.formatted) else c
  }

  /** Skipped when `AKASH_GAS_PRICES` is set; the price itself is fixed. */
  function SetGasPrices(c: Command, env: Env): (r: Command)
    ensures r.content == c.content + Unless(env, "AKASH_GAS_PRICES", ["--gas-prices=0.025uakt"])
    ensures "AKASH_GAS_PRICES" in env ==> r == c
    ensures r.blockHeight == c.blockHeight
  {
    if "AKASH_GAS_PRICES" !in env then Append(c, "--gas-prices=0.025uakt") else c
  }

  /** Skipped when `AKASH_CHAIN_ID` is set. */
  function SetChainId(c: Command, env: Env, chainId: string): (r: Command)
    ensures r.content == c.content + Unless(env, "AKASH_CHAIN_ID", ["--chain-id", chainId])
    ensures "AKASH_CHAIN_ID" in env ==> r == c
    ensures r.blockHeight == c.blockHeight
  {
    if "AKASH_CHAIN_ID" !in env then Append(Append(c, "--chain-id"), chainId) else c
  }

  /** Skipped when `AKASH_NODE` is set. */
  function SetNode(c: Command, env: Env, node: string): (r: Command)
    ensures r.content == c.content + Unless(env, "AKASH_NODE", ["--node", node])
    ensures "AKASH_NODE" in env ==> r == c
    ensures r.blockHeight == c.blockHeight
  {
    if "AKASH_NODE" !in env then Append(Append(c, "--node"), node) else c
  }

  /** Skipped when `AKASH_KEYRING_BACKEND` is set. */
  function SetKeyringBackend(c: Command, env: Env, keyringBackend: string): (r: Command)
    ensures r.content == c.content + Unless(env, "AKASH_KEYRING_BACKEND", ["--keyring-backend", keyringBackend])
    ensures "AKASH_KEYRING_BACKEND" in env ==> r == c
    ensures r.blockHeight == c.blockHeight
  {
    if "AKASH_KEYRING_BACKEND" !in env then Append(Append(c, "--keyring-backend"), keyringBackend) else c
  }

  /** The note is one token, double-quoted after `--note=`. */
  function SetNote(c: Command, note: string): (r: Command)
    ensures r.content == c.content + [NoteToken(note)]
    ensures r.blockHeight == c.blockHeight
  {
    Append(c, NoteToken(note))
  }

  function SetDepositorAccount(c: Command, account: string): (r: Command)
    ensures r.content == c.content + ["--depositor-account", account]
    ensures r.blockHeight == c.blockHeight
  {
    Append(Append(c, "--depositor-account"), account)
  }

  /** Skipped when `AKASH_SIGN_MODE` is set; a mode off the whitelist is logged and the
      command is returned as it was. */
  function SetSignMode(c: Command, env: Env, mode: string): (r: Command)
    ensures r.content == c.content
      + Unless(env, "AKASH_SIGN_MODE", if mode in SupportedSignModes then ["--sign-mode", mode] else [])
    ensures "AKASH_SIGN_MODE" !in env && mode in SupportedSignModes ==>
      r.content == c.content + ["--sign-mode", mode]
    ensures !("AKASH_SIGN_MODE" !in env && mode in SupportedSignModes) ==> r == c
    ensures r.blockHeight == c.blockHeight
  {
    if "AKASH_SIGN_MODE" !in env then
      if mode !in SupportedSignModes then c
      else Append(Append(c, "--sign-mode"), mode)
    else c
  }

  function AutoAccept(c: Command): (r: Command)
    ensures r.content == c.content + ["-y"]
    ensures r.blockHeight == c.blockHeight
  {
    Append(c, "-y")
  }

  function OutputJson(c: Command): (r: Command)
    ensures r.content == c.content + ["-o", "json"]
    ensures r.blockHeight == c.blockHeight
  {
    Append(Append(c, "-o"), "json")
  }

  // ---------------------------------------------------------------------------
  // Reading a command

  /** The argument list handed to the program: every token but the program name. */
  function Headless(c: Command): (args: seq<string>)
    requires |c.content| >= 1
    ensures |args| == |c.content| - 1
    ensures [c.content[0]] + args == c.content
  {
    c.content[1..]
  }

  function SetBlockHeight(c: Command, height: string): (r: Command)
    ensures r.content == c.content
  {
    c.(blockHeight := height)
  }

  /** The height last set on the command, or `""` when none was. */
  function GetBlockHeight(c: Command): (height: string)
    ensures height == c.blockHeight
  {
    c.blockHeight
  }

  predicate IsPrefix(a: seq<string>, b: seq<string>) {
    |a| <= |b| && b[..|a|] == a
  }

  // ---------------------------------------------------------------------------
  // Properties of the builder

  /** Appending keeps every prefix of a token list. */
  lemma AppendKeepsPrefix(p: seq<string>, a: seq<string>, b: seq<string>)
    requires IsPrefix(p, a)
    ensures IsPrefix(p, a + b)
  {
    assert (a + b)[..|a|] == a;
    assert (a + b)[..|p|] == (a + b)[..|a|][..|p|];
  }

  /** The program receives exactly the tokens appended after `AkashCli`: the program
      name is never among its arguments. */
  lemma HeadlessOfBuilt(path: string, tokens: seq<string>)
    ensures Headless(Command(AkashCli(path).content + tokens, "")) == tokens
  {
    var c := Command(AkashCli(path).content + tokens, "");
    assert [c.content[0]] + Headless(c) == [Program(path)] + tokens;
    assert Headless(c) == ([Program(path)] + Headless(c))[1..];
  }

  /** Each guard reads its own override variable and nothing else: two environments
      that agree on that one variable give the option the same result, whatever else
      either contains. */
  lemma GuardsIndependent(c: Command, env1: Env, env2: Env, value: string, adjustment: Float32)
    ensures ("AKASH_NODE" in env1 <==> "AKASH_NODE" in env2) ==>
      SetNode(c, env1, value) == SetNode(c, env2, value)
    ensures ("AKASH_CHAIN_ID" in env1 <==> "AKASH_CHAIN_ID" in env2) ==>
      SetChainId(c, env1, value) == SetChainId(c, env2, value)
    ensures ("AKASH_KEYRING_BACKEND" in env1 <==> "AKASH_KEYRING_BACKEND" in env2) ==>
      SetKeyringBackend(c, env1, value) == SetKeyringBackend(c, env2, value)
    ensures ("AKASH_GAS" in env1 <==> "AKASH_GAS" in env2) ==>
      GasAuto(c, env1) == GasAuto(c, env2)
    ensures ("AKASH_GAS_ADJUSTMENT" in env1 <==> "AKASH_GAS_ADJUSTMENT" in env2) ==>
      SetGasAdjustment(c, env1, adjustment) == SetGasAdjustment(c, env2, adjustment)
    ensures ("AKASH_GAS_PRICES" in env1 <==> "AKASH_GAS_PRICES" in env2) ==>
      SetGasPrices(c, env1) == SetGasPrices(c, env2)
    ensures ("AKASH_SIGN_MODE" in env1 <==> "AKASH_SIGN_MODE" in env2) ==>
      SetSignMode(c, env1, value) == SetSignMode(c, env2, value)
  {
  }

  /** The fee token carries the amount in a form that reads back exactly. */
  lemma FeesTokenReadsBack(amount: Int64)
    ensures |FeesToken(amount)| > 4
    ensures FeesToken(amount)[|FeesToken(amount)| - 4..] == "uakt"
    ensures ParseDecimal(FeesToken(amount)[..|FeesToken(amount)| - 4]) == Some(amount as int)
  {
    var t := FeesToken(amount);
    DecimalRoundTrip(amount as int);
    assert t[..|t| - 4] == Decimal(amount as int);
  }

  /** The height set on a command is the height read back, and appending tokens keeps it,
      through the primitive and through builder steps alike. */
  lemma BlockHeightRoundTrip(c: Command, env: Env, height: string, token: string)
    ensures GetBlockHeight(SetBlockHeight(c, height)) == height
    ensures GetBlockHeight(Append(SetBlockHeight(c, height), token)) == height
    ensures GetBlockHeight(OutputJson(SetNode(SetBlockHeight(c, height), env, token))) == height
    ensures SetBlockHeight(c, height).content == c.content
  {
  }
}

=== FILE: client.dfy ===
/** The Akash client (package `client`, file client.go): its configuration, the
    submission queue, the confirmation poller and the single submission worker.

    Time and concurrency are abstracted away. The poller's 90-second timer becomes the
    finite list of responses to the polls that start before it fires; the 500 ms sleep
    after an undecodable response is one step of that list. For each request, whether
    its caller is still waiting (its 30-second timer has not fired) when the worker sends
    the first result is an input, `callerReads`. The worker is a sequential fold over the
    queue. */
module Client {
  import opened Errors
  import opened Cli
  import opened Types

  /** The provider configuration the client is built from. */
  datatype Configuration = Configuration(
    keyName: string,
    keyringBackend: string,
    accountAddress: string,
    net: string,
    version: string,
    chainId: string,
    node: string,
    home: string,
    path: string,
    providersApi: string,
    depositorAccount: string,
    feeAccount: string)

  /** Capacity of the submission queue. */
  const QueueCapacity: nat := 100

  /** Capacity of each caller's result channel. */
  const ResultBufferSize: nat := 1

  const TimeoutError := Error("timeout waiting for transaction confirmation")

  /** The error a failed transaction record is reported with. */
  function TransactionFailedError(rawLog: string): Error
  {
    Error("transaction failed: " + rawLog)
  }

  /** What a request's handler returned: a transaction id and an error (None is nil). */
  datatype HandlerOutcome = HandlerOutcome(txId: string, err: Option<Error>)

  /** The response to one confirmation poll: stdout did not decode, or the decoded record. */
  datatype PollOutcome = NotDecoded(decodeError: Error) | Decoded(tx: Transaction)

  /** A submission request: the handler's outcome, the responses its confirmation
      polls would get, and whether the caller still waits when the first result is sent. */
  datatype TxRequest = TxRequest(handler: HandlerOutcome, polls: seq<PollOutcome>, callerReads: bool)

  datatype TxResult = TxResult(err: Option<Error>)

  datatype AkashClient = AkashClient(
    config: Configuration,
    transactionNote: string,
    queueCapacity: nat,
    queue: seq<TxRequest>)

  /** A client with an empty submission queue of the fixed capacity and no note yet. */
  function New(config: Configuration): (ak: AkashClient)
    ensures ak.config == config
    ensures ak.queueCapacity == 100
    ensures ak.queue == []
    ensures ak.transactionNote == ""
  {
    AkashClient(config, "", QueueCapacity, [])
  }

  /** The configured program path; a command started from it runs the configured
      program, or `provider-services` when the path is empty. */
  function GetPath(ak: AkashClient): (path: string)
    ensures path == ak.config.path
    ensures AkashCli(path).content == [Program(ak.config.path)]
  {
    ak.config.path
  }

  function SetGlobalTransactionNote(ak: AkashClient, note: string): (r: AkashClient)
    ensures r.transactionNote == note
    ensures r.config == ak.config && r.queue == ak.queue && r.queueCapacity == ak.queueCapacity
  {
    ak.(transactionNote := note)
  }

  /** Putting a request on the queue: it goes to the back while there is room;
      None means the sending caller blocks because the queue is full. */
  function Enqueue(ak: AkashClient, req: TxRequest): (r: Option<AkashClient>)
    ensures r.Some? <==> |ak.queue| < ak.queueCapacity
    ensures r.Some? ==> r.value.queue == ak.queue + [req] && r.value.queue[..|ak.queue|] == ak.queue
    ensures r.Some? ==> r.value.config == ak.config && r.value.queueCapacity == ak.queueCapacity
    ensures r.Some? ==> r.value.transactionNote == ak.transactionNote
  {
    if |ak.queue| < ak.queueCapacity then Some(ak.(queue := ak.queue + [req])) else None
  }

  /** The queue never holds more requests than its capacity. */
  lemma EnqueueBounded(ak: AkashClient, req: TxRequest)
    requires |ak.queue| <= ak.queueCapacity
    ensures Enqueue(ak, req).Some? ==> |Enqueue(ak, req).value.queue| <= ak.queueCapacity
  {
  }

  /** The worker's `range` over the queue taking the next request: the front one, which
      frees its slot. */
  function Receive(ak: AkashClient): (r: (TxRequest, AkashClient))
    requires |ak.queue| > 0
    ensures r.0 == ak.queue[0] && [r.0] + r.1.queue == ak.queue
    ensures r.1.config == ak.config && r.1.queueCapacity == ak.queueCapacity
    ensures r.1.transactionNote == ak.transactionNote
  {
    (ak.queue[0], ak.(queue := ak.queue[1..]))
  }

  /** A full queue is full only until the worker's next receive. */
  lemma ReceiveFreesSlot(ak: AkashClient, req: TxRequest)
    requires 0 < |ak.queue| <= ak.queueCapacity
    ensures Enqueue(Receive(ak).1, req).Some?
  {
  }

  /** The queue is first in, first out: receiving before or after another request joins
      the back takes the same front request and leaves the same queue. */
  lemma {:induction false} ReceiveEnqueueCommute(ak: AkashClient, req: TxRequest)
    requires |ak.queue| > 0 && Enqueue(ak, req).Some?
    ensures Receive(Enqueue(ak, req).value).0 == Receive(ak).0
    ensures Enqueue(Receive(ak).1, req) == Some(Receive(Enqueue(ak, req).value).1)
  {
    assert (ak.queue + [req])[1..] == ak.queue[1..] + [req];
  }

  /** A request put on an empty queue is the next one received. */
  lemma EnqueueThenReceive(ak: AkashClient, req: TxRequest)
    requires ak.queue == [] && ak.queueCapacity > 0
    ensures Enqueue(ak, req).Some? && Receive(Enqueue(ak, req).value).0 == req
  {
  }

  /** Callers' sends, one after another: the client after each request has joined the
      queue, or None when a sender finds the queue full. A channel never holds more than
      its capacity, hence the requirement. */
  function EnqueueAll(ak: AkashClient, reqs: seq<TxRequest>): (r: Option<AkashClient>)
    requires |ak.queue| <= ak.queueCapacity
    ensures r.Some? <==> |ak.queue| + |reqs| <= ak.queueCapacity
    ensures r.Some? ==> r.value.queue == ak.queue + reqs
    ensures r.Some? ==> r.value.config == ak.config && r.value.queueCapacity == ak.queueCapacity
    decreases |reqs|
  {
    if reqs == [] then Some(ak)
    else match Enqueue(ak, reqs[0])
      case None => None
      case Some(next) =>
        var r := EnqueueAll(next, reqs[1..]);
        assert r.Some? ==> r.value.queue == ak.queue + reqs by {
          assert [reqs[0]] + reqs[1..] == reqs;
        }
        r
  }

  /** The requests the worker's `range` receives, one receive after another until the
      queue is empty: exactly the queued requests, front first. */
  function Drain(ak: AkashClient): (received: seq<TxRequest>)
    ensures received == ak.queue
    decreases |ak.queue|
  {
    if |ak.queue| == 0 then []
    else
      var (req, rest) := Receive(ak);
      [req] + Drain(rest)
  }

  // ---------------------------------------------------------------------------
  // Confirmation poller

  /** The query every confirmation poll runs for a hash. */
  function PollCommand(ak: AkashClient, env: Env, txHash: string): (cmd: Command)
    ensures cmd.content ==
      [Program(ak.config.path), "query", "tx", txHash]
      + Unless(env, "AKASH_NODE", ["--node", ak.config.node])
      + ["-o", "json"]
  {
    var c := AkashCli(GetPath(ak));
    var c := Query(c);
    var c := Tx(c);
    var c := SetHash(c, txHash);
    var c := SetNode(c, env, ak.config.node);
    OutputJson(c)
  }

  datatype Verdict = Confirmed | Rejected(rawLog: string) | TimedOut

  /** How polling ended, and how many 500 ms backoffs it slept before that. */
  datatype PollRun = PollRun(verdict: Verdict, backoffs: nat)

  /** The verdict a decoded record gives: confirmed when it has logs, otherwise
      rejected with its raw log. A decoded record never times out. */
  function Judge(tx: Transaction): (v: Verdict)
    ensures v.Confirmed? <==> tx.logs != []
    ensures v.Rejected? ==> v.rawLog == tx.rawLog
    ensures !v.TimedOut?
  {
    if Failed(tx) then Rejected(tx.rawLog) else Confirmed
  }

  /** The error polling reports for a verdict (None is nil). */
  function VerdictError(v: Verdict): (err: Option<Error>)
    ensures err.None? <==> v.Confirmed?
    ensures v.Rejected? ==> err == Some(TransactionFailedError(v.rawLog))
    ensures v.TimedOut? ==> err == Some(TimeoutError)
  {
    match v
    case Confirmed => None
    case Rejected(rawLog) => Some(TransactionFailedError(rawLog))
    case TimedOut => Some(TimeoutError)
  }

  /** A rejection is never reported with the timeout's message. */
  lemma RejectionIsNotTimeout(rawLog: string)
    ensures TransactionFailedError(rawLog) != TimeoutError
  {
    assert TransactionFailedError(rawLog).message[1] == 'r';
  }

  /** The error text tells the verdict back: a rejection's message is never the
      timeout's, and two rejections report the same message only for the same raw log. */
  lemma {:induction false} VerdictErrorInjective(v: Verdict, w: Verdict)
    ensures VerdictError(v) == VerdictError(w) ==> v == w
  {
    if VerdictError(v) == VerdictError(w) && v.Rejected? && w.Rejected? {
      var p := "transaction failed: ";
      assert TransactionFailedError(v.rawLog).message[|p|..] == v.rawLog;
      assert TransactionFailedError(w.rawLog).message[|p|..] == w.rawLog;
    } else if v.Rejected? {
      RejectionIsNotTimeout(v.rawLog);
    } else if w.Rejected? {
      RejectionIsNotTimeout(w.rawLog);
    }
  }

  predicate NeverDecoded(polls: seq<PollOutcome>) {
    forall j :: 0 <= j < |polls| ==> polls[j].NotDecoded?
  }

  /** Response `k` is the first one that decoded. */
  predicate FirstDecodedAt(polls: seq<PollOutcome>, k: int) {
    && 0 <= k < |polls|
    && polls[k].Decoded?
    && NeverDecoded(polls[..k])
  }

  /** Polling, as a function of the responses to the polls started before the timer
      fires: undecodable responses only lead to another poll; the first decoded record
      decides, failed or confirmed; with none decoded, polling times out. */
  function Poll(polls: seq<PollOutcome>): (r: PollRun)
    ensures r.verdict.TimedOut? <==> NeverDecoded(polls)
    ensures NeverDecoded(polls) ==> r.backoffs == |polls|
    ensures forall k :: FirstDecodedAt(polls, k) ==> r == PollRun(Judge(polls[k].tx), k)
    decreases |polls|
  {
    if polls == [] then PollRun(TimedOut, 0)
    else match polls[0]
      case Decoded(tx) =>
        assert forall k :: FirstDecodedAt(polls, k) ==> k == 0;
        PollRun(Judge(tx), 0)
      case NotDecoded(_) =>
        var rest := Poll(polls[1..]);
        assert forall k :: FirstDecodedAt(polls, k) ==> FirstDecodedAt(polls[1..], k - 1) by {
          forall k | FirstDecodedAt(polls, k)
            ensures FirstDecodedAt(polls[1..], k - 1)
          {
            assert k != 0;
            assert polls[1..][..k - 1] == polls[..k][1..];
          }
        }
        assert NeverDecoded(polls) <==> NeverDecoded(polls[1..]) by {
          assert forall j :: 0 <= j < |polls| - 1 ==> polls[1..][j] == polls[j + 1];
        }
        PollRun(rest.verdict, rest.backoffs + 1)
  }

  /** Some response decodes exactly when there is a first one to decode. */
  lemma {:induction false} FirstDecodedExists(polls: seq<PollOutcome>)
    requires !NeverDecoded(polls)
    ensures exists k :: FirstDecodedAt(polls, k)
    decreases |polls|
  {
    if polls[0].Decoded? {
      assert FirstDecodedAt(polls, 0);
    } else {
      assert !NeverDecoded(polls[1..]) by {
        var j :| 0 <= j < |polls| && polls[j].Decoded?;
        assert polls[1..][j - 1] == polls[j];
      }
      FirstDecodedExists(polls[1..]);
      var k :| FirstDecodedAt(polls[1..], k);
      assert polls[..k + 1] == [polls[0]] + polls[1..][..k];
      assert FirstDecodedAt(polls, k + 1);
    }
  }

  /** The confirmation loop: poll, sleep after a response that does not decode, and stop
      at the first decoded record or when the timer has fired. Returns the error
      reported (None on success), the backoffs slept and the commands it ran. */
  method WaitForTx(ak: AkashClient, env: Env, txHash: string, polls: seq<PollOutcome>)
    returns (err: Option<Error>, backoffs: nat, commands: seq<Command>)
    ensures err == VerdictError(Poll(polls).verdict)
    ensures backoffs == Poll(polls).backoffs
    ensures |commands| == if NeverDecoded(polls) then |polls| else backoffs + 1
    ensures forall i :: 0 <= i < |commands| ==> commands[i] == PollCommand(ak, env, txHash)
  {
    backoffs := 0;
    commands := [];
    var i := 0;
    while i < |polls|
      invariant 0 <= i <= |polls|
      invariant NeverDecoded(polls[..i])
      invariant backoffs == i && |commands| == i
      invariant forall j :: 0 <= j < |commands| ==> commands[j] == PollCommand(ak, env, txHash)
    {
      commands := commands + [PollCommand(ak, env, txHash)];
      match polls[i]
      case NotDecoded(_) =>
        assert polls[..i + 1] == polls[..i] + [polls[i]];
        backoffs := backoffs + 1;
        i := i + 1;
      case Decoded(tx) =>
        assert FirstDecodedAt(polls, i);
        assert !NeverDecoded(polls);
        if Failed(tx) {
          err := Some(TransactionFailedError(tx.rawLog));
        } else {
          err := None;
        }
        return;
    }
    assert polls[..i] == polls;
    err := Some(TimeoutError);
  }

  // ---------------------------------------------------------------------------
  // Result channel and submission worker

  /** A caller's result channel: how many values sit in its buffer, whether its one
      reader is still waiting, and what that reader received. */
  datatype ResultChannel = ResultChannel(buffered: nat, readerWaiting: bool, received: seq<TxResult>)

  function OpenChannel(callerReads: bool): ResultChannel
  {
    ResultChannel(0, callerReads, [])
  }

  /** A send completes unless the buffer is full and nobody will read. */
  predicate CanSend(ch: ResultChannel) {
    ch.readerWaiting || ch.buffered < ResultBufferSize
  }

  /** A completed send: the waiting reader takes the value, or it stays in the buffer. */
  function AfterSend(ch: ResultChannel, r: TxResult): ResultChannel
    requires CanSend(ch)
  {
    if ch.readerWaiting then ch.(readerWaiting := false, received := ch.received + [r])
    else ch.(buffered := ch.buffered + 1)
  }

  /** What the worker does for one request. */
  datatype Action =
    | RunHandler
    | StartPolling(txHash: string)
    | Send(result: TxResult)
    | BlockedOnSend(result: TxResult)
    | CloseChannel

  /** One request's service: the worker's actions, the sends that completed, what the
      caller received, and whether the worker is left blocked forever. */
  datatype RequestRun = RequestRun(actions: seq<Action>, sent: seq<TxResult>, received: seq<TxResult>, blocks: bool)

  /** The worker's loop body as written: a handler error is sent, and then the code
      goes on to poll the returned id anyway and to send the poller's result as well.
      A handler that succeeds is served exactly as intended: its id is polled, the one
      result is the poller's verdict, and the channel is closed. */
  function ServeAsWritten(req: TxRequest): (run: RequestRun)
    ensures req.handler.err.None? ==> run == Serve(req)
    ensures req.handler.err.None? ==>
      && run.sent == [TxResult(VerdictError(Poll(req.polls).verdict))]
      && run.actions[|run.actions| - 1] == CloseChannel && !run.blocks
    ensures req.handler.err.Some? ==>
      && |run.sent| >= 1 && run.sent[0] == TxResult(req.handler.err)
      && StartPolling(req.handler.txId) in run.actions
      && (run.blocks <==> !req.callerReads)
    ensures req.handler.err.Some? ==>
      && |run.actions| >= 4
      && run.actions[..3] == [RunHandler, Send(TxResult(req.handler.err)), StartPolling(req.handler.txId)]
    ensures req.handler.err.Some? && req.callerReads ==>
      && run.sent == [TxResult(req.handler.err), TxResult(VerdictError(Poll(req.polls).verdict))]
      && |run.actions| == 5 && run.actions[3] == Send(run.sent[1])
      && run.actions[|run.actions| - 1] == CloseChannel
    ensures req.handler.err.Some? && !req.callerReads ==>
      && run.sent == [TxResult(req.handler.err)]
      && run.actions[|run.actions| - 1] == BlockedOnSend(TxResult(VerdictError(Poll(req.polls).verdict)))
      && CloseChannel !in run.actions
  {
    var h := req.handler;
    var confirmation := TxResult(VerdictError(Poll(req.polls).verdict));
    var ch := OpenChannel(req.callerReads);
    if h.err.None? then
      var ch1 := AfterSend(ch, confirmation);
      RequestRun([RunHandler, StartPolling(h.txId), Send(confirmation), CloseChannel],
                 [confirmation], ch1.received, false)
    else
      var first := TxResult(h.err);
      var ch1 := AfterSend(ch, first);
      if CanSend(ch1) then
        var ch2 := AfterSend(ch1, confirmation);
        RequestRun([RunHandler, Send(first), StartPolling(h.txId), Send(confirmation), CloseChannel],
                   [first, confirmation], ch2.received, false)
      else
        RequestRun([RunHandler, Send(first), StartPolling(h.txId), BlockedOnSend(confirmation)],
                   [first], ch1.received, true)
  }

  /** The worker's loop body as intended: a handler error is the request's one result;
      otherwise the handler's id is polled and the poller's result is sent. The channel is
      closed after the one send either way. */
  function Serve(req: TxRequest): (run: RequestRun)
    ensures |run.sent| == 1 && !run.blocks
    ensures |run.actions| >= 3
    ensures run.actions[0] == RunHandler && run.actions[|run.actions| - 1] == CloseChannel
    ensures run.actions[|run.actions| - 2] == Send(run.sent[0])
    ensures forall a :: a in run.actions[..|run.actions| - 2] ==> !a.Send?
    ensures req.handler.err.None? ==> run.actions[1] == StartPolling(req.handler.txId)
    ensures req.handler.err.Some? ==> run.sent == [TxResult(req.handler.err)]
    ensures req.handler.err.Some? ==> forall a :: a in run.actions ==> !a.StartPolling?
    ensures req.handler.err.None? ==>
      run.sent == [TxResult(VerdictError(Poll(req.polls).verdict))]
      && StartPolling(req.handler.txId) in run.actions
    ensures run.received == if req.callerReads then run.sent else []
  {
    var h := req.handler;
    var ch := OpenChannel(req.callerReads);
    if h.err.Some? then
      var first := TxResult(h.err);
      var ch1 := AfterSend(ch, first);
      RequestRun([RunHandler, Send(first), CloseChannel], [first], ch1.received, false)
    else
      var confirmation := TxResult(VerdictError(Poll(req.polls).verdict));
      var ch1 := AfterSend(ch, confirmation);
      RequestRun([RunHandler, StartPolling(h.txId), Send(confirmation), CloseChannel],
                 [confirmation], ch1.received, false)
  }

  /** A worker action tagged with the position of the request it belongs to. */
  datatype WorkerEvent = WorkerEvent(request: nat, action: Action)

  function Tag(request: nat, actions: seq<Action>): (events: seq<WorkerEvent>)
    ensures |events| == |actions|
    ensures forall i :: 0 <= i < |events| ==> events[i] == WorkerEvent(request, actions[i])
  {
    seq(|actions|, i requires 0 <= i < |actions| => WorkerEvent(request, actions[i]))
  }

  /** The worker's history over a queue: each request's service, in order, and the whole
      event trace; `stuck` when a send blocked forever, after which nothing more is served. */
  datatype WorkerRun = WorkerRun(runs: seq<RequestRun>, trace: seq<WorkerEvent>, stuck: bool)

  /** The event trace of a sequence of request services: each service's actions, tagged
      with its position, one service after another. */
  function Trace(runs: seq<RequestRun>): seq<WorkerEvent>
  {
    if runs == [] then [] else Trace(runs[..|runs| - 1]) + Tag(|runs| - 1, runs[|runs| - 1].actions)
  }

  predicate NonDecreasingRequests(trace: seq<WorkerEvent>) {
    forall a, b :: 0 <= a < b < |trace| ==> trace[a].request <= trace[b].request
  }

  /** A trace visits the services in order, one at a time: positions never go back, and
      every event belongs to one of the services. */
  lemma {:induction false} TraceInOrder(runs: seq<RequestRun>)
    ensures NonDecreasingRequests(Trace(runs))
    ensures forall e :: e in Trace(runs) ==> e.request < |runs|
    decreases |runs|
  {
    if runs != [] {
      var n := |runs| - 1;
      TraceInOrder(runs[..n]);
      var earlier := Trace(runs[..n]);
      assert forall a :: 0 <= a < |earlier| ==> earlier[a] in earlier;
    }
  }

  /** The single worker draining the queue front to back with the given loop body.
      Requests are served strictly in queue order and one at a time: the trace never
      returns to an earlier request. The worker stops for good at the first request
      whose service blocks. */
  function Work(queue: seq<TxRequest>, serve: TxRequest -> RequestRun): (w: WorkerRun)
    ensures |w.runs| <= |queue|
    ensures forall i :: 0 <= i < |w.runs| ==> w.runs[i] == serve(queue[i])
    ensures !w.stuck ==> |w.runs| == |queue| && forall i :: 0 <= i < |queue| ==> !serve(queue[i]).blocks
    ensures w.stuck ==> |w.runs| >= 1 && w.runs[|w.runs| - 1].blocks
    ensures w.stuck ==> forall i :: 0 <= i < |w.runs| - 1 ==> !w.runs[i].blocks
    ensures w.trace == Trace(w.runs)
    ensures NonDecreasingRequests(w.trace)
    ensures forall e :: e in w.trace ==> e.request < |w.runs|
    decreases |queue|
  {
    if queue == [] then WorkerRun([], [], false)
    else
      var n := |queue| - 1;
      var prev := Work(queue[..n], serve);
      assert forall i :: 0 <= i < |prev.runs| ==> queue[..n][i] == queue[i];
      if prev.stuck then prev
      else
        var run := serve(queue[n]);
        var trace := prev.trace + Tag(n, run.actions);
        assert (prev.runs + [run])[..|prev.runs|] == prev.runs;
        TraceInOrder(prev.runs + [run]);
        WorkerRun(prev.runs + [run], trace, run.blocks)
  }

  /** Requests sent to a new client are served in the order they were sent. */
  lemma {:induction false} ServedInSendOrder(config: Configuration, reqs: seq<TxRequest>, serve: TxRequest -> RequestRun)
    requires |reqs| <= QueueCapacity
    ensures EnqueueAll(New(config), reqs).Some?
    ensures EnqueueAll(New(config), reqs).value.queue == reqs
    ensures forall i :: 0 <= i < |Work(Drain(EnqueueAll(New(config), reqs).value), serve).runs| ==>
      Work(Drain(EnqueueAll(New(config), reqs).value), serve).runs[i] == serve(reqs[i])
  {
  }

  /** The intended worker serves every request and never blocks. */
  lemma WorkServesAll(queue: seq<TxRequest>)
    ensures !Work(queue, Serve).stuck
    ensures |Work(queue, Serve).runs| == |queue|
  {
  }

  /** What `WaitForTransaction` returns to its caller: the error of the first result it
      receives, or the timeout error when its timer fires first. */
  function WaitForTransaction(req: TxRequest): (err: Option<Error>)
    ensures req.callerReads && req.handler.err.Some? ==> err == req.handler.err
    ensures req.callerReads && req.handler.err.None? ==> err == VerdictError(Poll(req.polls).verdict)
    ensures !req.callerReads ==> err == Some(TimeoutError)
  {
    var run := Serve(req);
    if run.received != [] then run.received[0].err else Some(TimeoutError)
  }

  /** As written, a failing handler gets its error sent first, the returned id is polled
      regardless, and a second result is sent; when the caller has already left, the
      buffer still holds the first result and that second send blocks the worker forever. */
  lemma HandlerFailureSendsTwice(req: TxRequest)
    requires req.handler.err.Some?
    ensures ServeAsWritten(req).sent[0] == TxResult(req.handler.err)
    ensures StartPolling(req.handler.txId) in ServeAsWritten(req).actions
    ensures req.callerReads ==> |ServeAsWritten(req).sent| == 2 && !ServeAsWritten(req).blocks
    ensures !req.callerReads ==> ServeAsWritten(req).blocks
  {
  }

  /** A concrete stall: a failing handler whose caller has left, followed by an ordinary
      request. As written the worker blocks on the first and never serves the second;
      the intended worker serves both. */
  lemma AsWrittenWorkerStalls(e: Error)
    ensures var failing := TxRequest(HandlerOutcome("", Some(e)), [], false);
            var ordinary := TxRequest(HandlerOutcome("ABC123", None), [], true);
            && Work([failing, ordinary], ServeAsWritten).stuck
            && |Work([failing, ordinary], ServeAsWritten).runs| == 1
            && |Work([failing, ordinary], Serve).runs| == 2
  {
    var failing := TxRequest(HandlerOutcome("", Some(e)), [], false);
    var ordinary := TxRequest(HandlerOutcome("ABC123", None), [], true);
    assert ServeAsWritten(failing).blocks;
    WorkServesAll([failing, ordinary]);
  }

  /** The caller cannot tell the two loop bodies apart: it receives the same result. */
  lemma CallerSeesSameResult(req: TxRequest)
    ensures ServeAsWritten(req).received == Serve(req).received
  {
  }
}

=== FILE: deployments.dfy ===
/** Deployment operations of the client (file deployment.go): the commands they build,
    and how their outcome follows from the submission, the confirmation and the
    follow-up query. Process execution and JSON decoding are inputs: a `Result` says
    whether the program's output decoded, and into what record. */
module Deployments {
  import opened Errors
  import opened Cli
  import opened Types
  import opened Client

  /** Tokens appended by the two builder methods whose definitions are not part of this
      model: `DefaultGas()`, and `SetFeeAccount` called with the configured fee account. */
  datatype Externals = Externals(defaultGas: seq<string>, feeAccount: seq<string>)

  /** `DefaultGas()`: appends the tokens it is given, and nothing else. */
  function DefaultGas(c: Command, ext: Externals): (r: Command)
    ensures r.content == c.content + ext.defaultGas
    ensures r.blockHeight == c.blockHeight
  {
    Command(c.content + ext.defaultGas, c.blockHeight)
  }

  /** `SetFeeAccount(feeAccount)`: appends the tokens it is given, and nothing else. */
  function SetFeeAccount(c: Command, ext: Externals): (r: Command)
    ensures r.content == c.content + ext.feeAccount
    ensures r.blockHeight == c.blockHeight
  {
    Command(c.content + ext.feeAccount, c.blockHeight)
  }

  datatype Seqs = Seqs(dseq: string, gseq: string, oseq: string)

  const NoLogsError := Error("no transaction logs found")

  /** Gas adjustment passed by `UpdateDeployment`: 1.5 as Go's `%2f` renders it. */
  const UpdateGasAdjustment := Float32("1.500000")

  /** The `--note` token every transaction carries. */
  function Note(ak: AkashClient): string
  {
    NoteToken(ak.transactionNote)
  }

  // ---------------------------------------------------------------------------
  // Commands

  function GetDeploymentCommand(ak: AkashClient, env: Env, dseq: string, owner: string): (cmd: Command)
    ensures cmd.content ==
      [Program(ak.config.path)] + ["query"] + ["deployment"] + ["get"] + ["--owner", owner] + ["--dseq", dseq]
      + Unless(env, "AKASH_CHAIN_ID", ["--chain-id", ak.config.chainId])
      + Unless(env, "AKASH_NODE", ["--node", ak.config.node])
      + ["-o", "json"]
  {
    var c := AkashCli(GetPath(ak));
    var c := Query(c);
    var c := Deployment(c);
    var c := Cli.Get(c);
    var c := SetOwner(c, owner);
    var c := SetDseq(c, dseq);
    var c := SetChainId(c, env, ak.config.chainId);
    var c := SetNode(c, env, ak.config.node);
    OutputJson(c)
  }

  /** The create command; the depositor and fee accounts are added only when configured,
      and both before the output format. */
  function CreateDeploymentCommand(ak: AkashClient, env: Env, ext: Externals, manifest: string): (cmd: Command)
    ensures cmd.content ==
      [Program(ak.config.path)] + ["tx"] + ["deployment"] + ["create"] + [manifest]
      + ext.defaultGas
      + ["-y"] + ["--from", ak.config.keyName]
      + Unless(env, "AKASH_KEYRING_BACKEND", ["--keyring-backend", ak.config.keyringBackend])
      + Unless(env, "AKASH_CHAIN_ID", ["--chain-id", ak.config.chainId])
      + Unless(env, "AKASH_NODE", ["--node", ak.config.node])
      + [Note(ak)]
      + (if ak.config.depositorAccount != "" then ["--depositor-account", ak.config.depositorAccount] else [])
      + (if ak.config.feeAccount != "" then ext.feeAccount else [])
      + ["-o", "json"]
  {
    var c := AkashCli(GetPath(ak));
    var c := Tx(c);
    var c := Deployment(c);
    var c := Create(c);
    var c := Manifest(c, manifest);
    var c := DefaultGas(c, ext);
    var c := AutoAccept(c);
    var c := SetFrom(c, ak.config.keyName);
    var c := SetKeyringBackend(c, env, ak.config.keyringBackend);
    var c := SetChainId(c, env, ak.config.chainId);
    var c := SetNode(c, env, ak.config.node);
    var c := SetNote(c, ak.transactionNote);
    var withDepositor := if ak.config.depositorAccount != "" then SetDepositorAccount(c, ak.config.depositorAccount) else c;
    assert withDepositor.content == c.content
      + (if ak.config.depositorAccount != "" then ["--depositor-account", ak.config.depositorAccount] else []);
    var withFeeAccount := if ak.config.feeAccount != "" then SetFeeAccount(withDepositor, ext) else withDepositor;
    assert withFeeAccount.content == withDepositor.content + (if ak.config.feeAccount != "" then ext.feeAccount else []);
    OutputJson(withFeeAccount)
  }

  /** The query that fetches a submitted transaction's events. */
  function QueryTxCommand(ak: AkashClient, env: Env, txHash: string): (cmd: Command)
    ensures cmd.content ==
      [Program(ak.config.path), "query", "tx", txHash]
      + Unless(env, "AKASH_NODE", ["--node", ak.config.node])
      + ["-o", "json"]
  {
    var c := AkashCli(GetPath(ak));
    var c := Query(c);
    var c := QueryTx(c);
    var c := SetHash(c, txHash);
    var c := SetNode(c, env, ak.config.node);
    OutputJson(c)
  }

  /** The follow-up query is the very command the confirmation poller runs. */
  lemma QueryTxIsPollCommand(ak: AkashClient, env: Env, txHash: string)
    ensures QueryTxCommand(ak, env, txHash) == PollCommand(ak, env, txHash)
  {
  }

  function DeleteDeploymentCommand(ak: AkashClient, env: Env, ext: Externals, dseq: string, owner: string): (cmd: Command)
    ensures cmd.content ==
      [Program(ak.config.path)] + ["tx"] + ["deployment"] + ["close"]
      + ["--dseq", dseq] + ["--owner", owner] + ["--from", ak.config.keyName]
      + ext.defaultGas
      + Unless(env, "AKASH_CHAIN_ID", ["--chain-id", ak.config.chainId])
      + Unless(env, "AKASH_KEYRING_BACKEND", ["--keyring-backend", ak.config.keyringBackend])
      + Unless(env, "AKASH_NODE", ["--node", ak.config.node])
      + [Note(ak)] + ["-y"] + ["-o", "json"]
  {
    var c := AkashCli(GetPath(ak));
    var c := Tx(c);
    var c := Deployment(c);
    var c := Close(c);
    var c := SetDseq(c, dseq);
    var c := SetOwner(c, owner);
    var c := SetFrom(c, ak.config.keyName);
    var c := DefaultGas(c, ext);
    var c := SetChainId(c, env, ak.config.chainId);
    var c := SetKeyringBackend(c, env, ak.config.keyringBackend);
    var c := SetNode(c, env, ak.config.node);
    var c := SetNote(c, ak.transactionNote);
    var c := AutoAccept(c);
    OutputJson(c)
  }

  /** The fixed head of the close command, grouped as the builder calls append it. */
  function DeleteHead(ak: AkashClient, dseq: string, owner: string): (head: seq<string>)
    ensures head ==
      [Program(ak.config.path), "tx", "deployment", "close",
       "--dseq", dseq, "--owner", owner, "--from", ak.config.keyName]
  {
    [Program(ak.config.path)] + ["tx"] + ["deployment"] + ["close"]
      + ["--dseq", dseq] + ["--owner", owner] + ["--from", ak.config.keyName]
  }

  /** The close command names the deployment by its sequence number and owner and is
      signed with the configured key, ahead of every option that may vary. */
  lemma DeleteCommandPrefix(ak: AkashClient, env: Env, ext: Externals, dseq: string, owner: string)
    ensures IsPrefix(
      [Program(ak.config.path), "tx", "deployment", "close",
       "--dseq", dseq, "--owner", owner, "--from", ak.config.keyName],
      DeleteDeploymentCommand(ak, env, ext, dseq, owner).content)
  {
    var t := DeleteDeploymentCommand(ak, env, ext, dseq, owner).content;
    var head := DeleteHead(ak, dseq, owner);
    var s1 := Unless(env, "AKASH_CHAIN_ID", ["--chain-id", ak.config.chainId]);
    var s2 := Unless(env, "AKASH_KEYRING_BACKEND", ["--keyring-backend", ak.config.keyringBackend]);
    var s3 := Unless(env, "AKASH_NODE", ["--node", ak.config.node]);
    assert t == head + ext.defaultGas + s1 + s2 + s3 + [Note(ak)] + ["-y"] + ["-o", "json"];
    assert IsPrefix(head, head);
    AppendKeepsPrefix(head, head, ext.defaultGas);
    AppendKeepsPrefix(head, head + ext.defaultGas, s1);
    AppendKeepsPrefix(head, head + ext.defaultGas + s1, s2);
    AppendKeepsPrefix(head, head + ext.defaultGas + s1 + s2, s3);
    AppendKeepsPrefix(head, head + ext.defaultGas + s1 + s2 + s3, [Note(ak)]);
    AppendKeepsPrefix(head, head + ext.defaultGas + s1 + s2 + s3 + [Note(ak)], ["-y"]);
    AppendKeepsPrefix(head, head + ext.defaultGas + s1 + s2 + s3 + [Note(ak)] + ["-y"], ["-o", "json"]);
  }

  function UpdateDeploymentCommand(ak: AkashClient, env: Env, dseq: string, manifest: string): (cmd: Command)
    ensures cmd.content ==
      [Program(ak.config.path)] + ["tx"] + ["deployment"] + ["update"] + [manifest]
      + ["--dseq", dseq] + ["--from", ak.config.keyName]
      + Unless(env, "AKASH_NODE", ["--node", ak.config.node])
      + Unless(env, "AKASH_KEYRING_BACKEND", ["--keyring-backend", ak.config.keyringBackend])
      + Unless(env, "AKASH_CHAIN_ID", ["--chain-id", ak.config.chainId])
      + [Note(ak)]
      + Unless(env, "AKASH_GAS", ["--gas=auto"])
      + Unless(env, "AKASH_GAS_ADJUSTMENT", ["--gas-adjustment=" + UpdateGasAdjustment.formatted])
      + Unless(env, "AKASH_GAS_PRICES", ["--gas-prices=0.025uakt"])
      + Unless(env, "AKASH_SIGN_MODE", ["--sign-mode", "amino-json"])
      + ["-y"] + ["-o", "json"]
  {
    var c := AkashCli(GetPath(ak));
    var c := Tx(c);
    var c := Deployment(c);
    var c := Update(c);
    var c := Manifest(c, manifest);
    var c := SetDseq(c, dseq);
    var c := SetFrom(c, ak.config.keyName);
    var c := SetNode(c, env, ak.config.node);
    var c := SetKeyringBackend(c, env, ak.config.keyringBackend);
    var c := SetChainId(c, env, ak.config.chainId);
    var c := SetNote(c, ak.transactionNote);
    var c := GasAuto(c, env);
    var c := SetGasAdjustment(c, env, UpdateGasAdjustment);
    var c := SetGasPrices(c, env);
    var c := SetSignMode(c, env, "amino-json");
    var c := AutoAccept(c);
    OutputJson(c)
  }

  // ---------------------------------------------------------------------------
  // Outcomes

  /** The handler the deployment transactions submit: decode the command's output and
      hand back its hash, or `""` and the decode error. */
  function DecodeHandler(submission: Result<Transaction>): (h: HandlerOutcome)
    ensures h.err.None? <==> submission.Ok?
    ensures submission.Ok? ==> h.txId == submission.value.txHash
    ensures submission.Err? ==> h == HandlerOutcome("", Some(submission.error))
  {
    match submission
    case Ok(tx) => HandlerOutcome(tx.txHash, None)
    case Err(e) => HandlerOutcome("", Some(e))
  }

  /** Submitting a decoding handler through the worker succeeds exactly when the caller
      was still waiting, the output decoded, and polling confirmed the transaction. */
  lemma SubmitSucceeds(submission: Result<Transaction>, polls: seq<PollOutcome>, callerReads: bool)
    ensures WaitForTransaction(TxRequest(DecodeHandler(submission), polls, callerReads)).None?
      <==> callerReads && submission.Ok? && Poll(polls).verdict == Confirmed
  {
  }

  /** The record the handler decoded into: the Go zero value when decoding failed. */
  function Submitted(submission: Result<Transaction>): Transaction
  {
    if submission.Ok? then submission.value else ZeroTransaction
  }

  /** Whether `transactionCreateDeployment` gets as far as indexing the first event of the
      first log of the re-queried record. */
  predicate ReachesFirstEvent(submission: Result<Transaction>, polls: seq<PollOutcome>, callerReads: bool,
                              requery: Result<Transaction>)
  {
    && WaitForTransaction(TxRequest(DecodeHandler(submission), polls, callerReads)).None?
    && !Failed(Submitted(submission))
    && requery.Ok?
    && requery.value.logs != []
  }

  /** Submits the create command, checks the submitted record, re-queries it and returns
      the attributes of its first event. `requery` is the decoded output of the follow-up
      query. The first log must hold an event: the code indexes it without a check. */
  function TransactionCreateDeployment(submission: Result<Transaction>, polls: seq<PollOutcome>,
                                       callerReads: bool, requery: Result<Transaction>): (r: Result<seq<Attribute>>)
    requires ReachesFirstEvent(submission, polls, callerReads, requery) ==> requery.value.logs[0].events != []
    ensures r.Ok? <==> ReachesFirstEvent(submission, polls, callerReads, requery)
    ensures r.Ok? ==> r.value == requery.value.logs[0].events[0].attributes
    ensures !callerReads ==> r == Err(TimeoutError)
    ensures callerReads && submission.Err? ==> r == Err(submission.error)
    ensures callerReads && submission.Ok? && Poll(polls).verdict != Confirmed ==> r.Err? && Some(r.error) == VerdictError(Poll(polls).verdict)
    ensures WaitForTransaction(TxRequest(DecodeHandler(submission), polls, callerReads)).None? && Failed(Submitted(submission)) ==>
      r == Err(TransactionFailedError(Submitted(submission).rawLog))
    ensures WaitForTransaction(TxRequest(DecodeHandler(submission), polls, callerReads)).None? && !Failed(Submitted(submission)) ==>
      (requery.Err? ==> r == Err(requery.error)) && (requery.Ok? && requery.value.logs == [] ==> r == Err(NoLogsError))
  {
    var waited := WaitForTransaction(TxRequest(DecodeHandler(submission), polls, callerReads));
    var transaction := Submitted(submission);
    if waited.Some? then Err(waited.value)
    else if Failed(transaction) then Err(TransactionFailedError(transaction.rawLog))
    else match requery
      case Err(e) => Err(e)
      case Ok(queried) =>
        if |queried.logs| == 0 then Err(NoLogsError)
        else Ok(queried.logs[0].events[0].attributes)
  }

  /** The value of an attribute, `""` when it is missing: the lookup error is dropped. */
  function ValueOrEmpty(attrs: seq<Attribute>, key: string): (v: string)
    ensures !HasKey(attrs, key) ==> v == ""
    ensures HasKey(attrs, key) ==> exists i :: FirstWithKey(attrs, key, i) && v == attrs[i].value
  {
    Types.Get(attrs, key).value
  }

  /** Creates a deployment and reads its sequence numbers from the returned attributes;
      a missing number becomes `""` rather than an error. */
  function CreateDeployment(submission: Result<Transaction>, polls: seq<PollOutcome>,
                            callerReads: bool, requery: Result<Transaction>): (r: Result<Seqs>)
    requires ReachesFirstEvent(submission, polls, callerReads, requery) ==> requery.value.logs[0].events != []
    ensures r.Ok? <==> ReachesFirstEvent(submission, polls, callerReads, requery)
    ensures r.Err? ==> r == Err(TransactionCreateDeployment(submission, polls, callerReads, requery).error)
    ensures r.Ok? ==>
      var attrs := requery.value.logs[0].events[0].attributes;
      && (!HasKey(attrs, "dseq") ==> r.value.dseq == "")
      && (!HasKey(attrs, "gseq") ==> r.value.gseq == "")
      && (!HasKey(attrs, "oseq") ==> r.value.oseq == "")
      && (HasKey(attrs, "dseq") ==> exists i :: FirstWithKey(attrs, "dseq", i) && r.value.dseq == attrs[i].value)
      && (HasKey(attrs, "gseq") ==> exists i :: FirstWithKey(attrs, "gseq", i) && r.value.gseq == attrs[i].value)
      && (HasKey(attrs, "oseq") ==> exists i :: FirstWithKey(attrs, "oseq", i) && r.value.oseq == attrs[i].value)
  {
    match TransactionCreateDeployment(submission, polls, callerReads, requery)
    case Err(e) => Err(e)
    case Ok(attrs) => Ok(Seqs(ValueOrEmpty(attrs, "dseq"), ValueOrEmpty(attrs, "gseq"), ValueOrEmpty(attrs, "oseq")))
  }

  /** Closing a deployment reports only the worker's result. */
  function DeleteDeployment(submission: Result<Transaction>, polls: seq<PollOutcome>, callerReads: bool): (err: Option<Error>)
    ensures err.None? <==> callerReads && submission.Ok? && Poll(polls).verdict == Confirmed
    ensures callerReads && submission.Err? ==> err == Some(submission.error)
    ensures callerReads && submission.Ok? && Poll(polls).verdict != Confirmed ==> err == VerdictError(Poll(polls).verdict)
    ensures !callerReads ==> err == Some(TimeoutError)
  {
    WaitForTransaction(TxRequest(DecodeHandler(submission), polls, callerReads))
  }

  /** Updating a deployment reports only the worker's result. */
  function UpdateDeployment(submission: Result<Transaction>, polls: seq<PollOutcome>, callerReads: bool): (err: Option<Error>)
    ensures err.None? <==> callerReads && submission.Ok? && Poll(polls).verdict == Confirmed
    ensures callerReads && submission.Err? ==> err == Some(submission.error)
    ensures callerReads && submission.Ok? && Poll(polls).verdict != Confirmed ==> err == VerdictError(Poll(polls).verdict)
    ensures !callerReads ==> err == Some(TimeoutError)
  {
    WaitForTransaction(TxRequest(DecodeHandler(submission), polls, callerReads))
  }

  // ---------------------------------------------------------------------------
  // Properties of the commands

  predicate HasPair(tokens: seq<string>, a: string, b: string) {
    exists i :: 0 <= i < |tokens| - 1 && tokens[i] == a && tokens[i + 1] == b
  }

  /** Gluing two token lists creates no new `x y` pair unless the first ends with `x`
      and the second starts with `y`. */
  lemma NoPairConcat(a: seq<string>, b: seq<string>, x: string, y: string)
    requires !HasPair(a, x, y) && !HasPair(b, x, y)
    requires a != [] && b != [] ==> a[|a| - 1] != x || b[0] != y
    ensures !HasPair(a + b, x, y)
  {
    forall i | 0 <= i < |a + b| - 1
      ensures !((a + b)[i] == x && (a + b)[i + 1] == y)
    {
      if i + 1 < |a| {
        assert (a + b)[i] == a[i] && (a + b)[i + 1] == a[i + 1];
      } else if i + 1 == |a| {
        assert (a + b)[i] == a[|a| - 1] && (a + b)[i + 1] == b[0];
      } else {
        assert (a + b)[i] == b[i - |a|] && (a + b)[i + 1] == b[i - |a| + 1];
      }
    }
  }

  /** A two-token piece `[flag, value]` holds no `x y` pair when the flag is not `x`. */
  lemma NoPairInOption(flag: string, value: string, x: string, y: string)
    requires flag != x
    ensures !HasPair([flag, value], x, y)
  {
  }

  /** The tokens of the update command that come before the sign-mode option. */
  function UpdateBeforeSignMode(ak: AkashClient, env: Env, dseq: string, manifest: string): seq<string>
  {
    [Program(ak.config.path)] + ["tx"] + ["deployment"] + ["update"] + [manifest]
      + ["--dseq", dseq] + ["--from", ak.config.keyName]
      + Unless(env, "AKASH_NODE", ["--node", ak.config.node])
      + Unless(env, "AKASH_KEYRING_BACKEND", ["--keyring-backend", ak.config.keyringBackend])
      + Unless(env, "AKASH_CHAIN_ID", ["--chain-id", ak.config.chainId])
      + [Note(ak)]
      + Unless(env, "AKASH_GAS", ["--gas=auto"])
      + Unless(env, "AKASH_GAS_ADJUSTMENT", ["--gas-adjustment=" + UpdateGasAdjustment.formatted])
      + Unless(env, "AKASH_GAS_PRICES", ["--gas-prices=0.025uakt"])
  }

  lemma UpdateSplits(ak: AkashClient, env: Env, dseq: string, manifest: string)
    ensures UpdateDeploymentCommand(ak, env, dseq, manifest).content ==
      UpdateBeforeSignMode(ak, env, dseq, manifest)
      + Unless(env, "AKASH_SIGN_MODE", ["--sign-mode", "amino-json"])
      + ["-y"] + ["-o", "json"]
  {
  }

  /** Nothing the update command puts before its sign-mode option reads as a request
      for amino-json signing. */
  lemma {:induction false} NoSignPairBefore(ak: AkashClient, env: Env, dseq: string, manifest: string)
    ensures !HasPair(UpdateBeforeSignMode(ak, env, dseq, manifest), "--sign-mode", "amino-json")
  {
    var x, y := "--sign-mode", "amino-json";
    var p1 := [Program(ak.config.path)] + ["tx"] + ["deployment"] + ["update"] + [manifest];
    var p2 := p1 + ["--dseq", dseq] + ["--from", ak.config.keyName];
    var s1 := Unless(env, "AKASH_NODE", ["--node", ak.config.node]);
    var s2 := Unless(env, "AKASH_KEYRING_BACKEND", ["--keyring-backend", ak.config.keyringBackend]);
    var s3 := Unless(env, "AKASH_CHAIN_ID", ["--chain-id", ak.config.chainId]);
    var s4 := [Note(ak)];
    var s5 := Unless(env, "AKASH_GAS", ["--gas=auto"]);
    var s6 := Unless(env, "AKASH_GAS_ADJUSTMENT", ["--gas-adjustment=" + UpdateGasAdjustment.formatted]);
    var s7 := Unless(env, "AKASH_GAS_PRICES", ["--gas-prices=0.025uakt"]);
    assert |p1| == 5;
    assert !HasPair(p1, x, y) by {
      forall i | 0 <= i < 4
        ensures !(p1[i] == x && p1[i + 1] == y)
      {
        assert p1[i] in {Program(ak.config.path), "tx", "deployment", "update"};
        assert i + 1 < 4 ==> p1[i + 1] in {"tx", "deployment", "update"};
        assert i + 1 == 4 ==> p1[i] == "update";
      }
    }
    assert Note(ak)[0] == '-';
    NoPairInOption("--dseq", dseq, x, y);
    NoPairConcat(p1, ["--dseq", dseq], x, y);
    NoPairInOption("--from", ak.config.keyName, x, y);
    NoPairConcat(p1 + ["--dseq", dseq], ["--from", ak.config.keyName], x, y);
    NoPairInOption("--node", ak.config.node, x, y);
    NoPairConcat(p2, s1, x, y);
    NoPairInOption("--keyring-backend", ak.config.keyringBackend, x, y);
    NoPairConcat(p2 + s1, s2, x, y);
    NoPairInOption("--chain-id", ak.config.chainId, x, y);
    NoPairConcat(p2 + s1 + s2, s3, x, y);
    NoPairConcat(p2 + s1 + s2 + s3, s4, x, y);
    NoPairConcat(p2 + s1 + s2 + s3 + s4, s5, x, y);
    NoPairConcat(p2 + s1 + s2 + s3 + s4 + s5, s6, x, y);
    NoPairConcat(p2 + s1 + s2 + s3 + s4 + s5 + s6, s7, x, y);
  }

  /** The update command asks for amino-json signing exactly when the sign-mode override
      is absent, whatever the configured values are: every user-supplied value follows a
      fixed flag, and no fixed token is "amino-json". */
  lemma UpdateSignMode(ak: AkashClient, env: Env, dseq: string, manifest: string)
    ensures HasPair(UpdateDeploymentCommand(ak, env, dseq, manifest).content, "--sign-mode", "amino-json")
      <==> "AKASH_SIGN_MODE" !in env
  {
    var t := UpdateDeploymentCommand(ak, env, dseq, manifest).content;
    var x, y := "--sign-mode", "amino-json";
    var before := UpdateBeforeSignMode(ak, env, dseq, manifest);
    var s8 := Unless(env, "AKASH_SIGN_MODE", ["--sign-mode", "amino-json"]);
    UpdateSplits(ak, env, dseq, manifest);
    if "AKASH_SIGN_MODE" !in env {
      assert t[|before|] == x && t[|before| + 1] == y;
    } else {
      NoSignPairBefore(ak, env, dseq, manifest);
      NoPairConcat(before, s8, x, y);
      NoPairConcat(before + s8, ["-y"], x, y);
      NoPairInOption("-o", "json", x, y);
      NoPairConcat(before + s8 + ["-y"], ["-o", "json"], x, y);
    }
  }
}

=== FILE: errors.dfy ===
/** Go's `error` and the two-valued returns built on it.
    A Go function returning `error` is modelled as returning `Option<Error>` (None is nil);
    one returning `(T, error)` whose T is meaningless on error is modelled as `Result<T>`. */
module Errors {

  /** An error value, identified by its message text (`err.Error()`). */
  datatype Error = Error(message: string)

  datatype Option<+T> = None | Some(value: T)

  datatype Result<+T> = Ok(value: T) | Err(error: Error)
}

=== FILE: format.dfy ===
/** The parts of Go's `fmt` formatting that the command builder relies on:
    the `%d` verb on an `int64`, together with a parser that inverts it. */
module Format {
  import opened Errors

  /** Go's `int64`. */
  newtype Int64 = x: int | -0x8000_0000_0000_0000 <= x < 0x8000_0000_0000_0000

  predicate IsDigit(ch: char) {
    '0' <= ch <= '9'
  }

  predicate AllDigits(s: string) {
    forall i :: 0 <= i < |s| ==> IsDigit(s[i])
  }

  function DigitChar(d: nat): (ch: char)
    requires d < 10
    ensures IsDigit(ch)
  {
    ('0' as int + d) as char
  }

  function DigitValue(ch: char): (d: nat)
    requires IsDigit(ch)
    ensures d < 10
  {
    ch as int - '0' as int
  }

  /** Base-10 digits of `n`, most significant first, without leading zeros. */
  function NatToDecimal(n: nat): (s: string)
    ensures |s| >= 1
    ensures AllDigits(s)
    ensures s[0] == '0' ==> n == 0
    decreases n
  {
    if n < 10 then [DigitChar(n)] else NatToDecimal(n / 10) + [DigitChar(n % 10)]
  }

  /** The value of a string of decimal digits. */
  function ParseNat(s: string): nat
    requires AllDigits(s)
    decreases |s|
  {
    if s == [] then 0 else ParseNat(s[..|s| - 1]) * 10 + DigitValue(s[|s| - 1])
  }

  /** `fmt.Sprintf("%d", n)`: a leading minus sign for negative values, then the digits. */
  function Decimal(n: int): (s: string)
  {
    if n < 0 then "-" + NatToDecimal(-n) else NatToDecimal(n)
  }

  /** Reads back a string produced by `Decimal`; None for anything else that is not a number. */
  function ParseDecimal(s: string): Option<int>
  {
    if |s| >= 2 && s[0] == '-' && AllDigits(s[1..]) then
      var magnitude: int := ParseNat(s[1..]);
      Some(-magnitude)
    else if |s| >= 1 && AllDigits(s) then
      var magnitude: int := ParseNat(s);
      Some(magnitude)
    else None
  }

  lemma {:induction false} ParseNatToDecimal(n: nat)
    ensures ParseNat(NatToDecimal(n)) == n
    decreases n
  {
    if n >= 10 {
      var s := NatToDecimal(n);
      ParseNatToDecimal(n / 10);
      assert s[..|s| - 1] == NatToDecimal(n / 10);
      assert DigitValue(s[|s| - 1]) == n % 10;
    } else {
      assert DigitValue(DigitChar(n)) == n;
    }
  }

  /** `%d` loses nothing: the rendering reads back as the value it came from,
      so two different amounts never render alike. */
  lemma DecimalRoundTrip(n: int)
    ensures ParseDecimal(Decimal(n)) == Some(n)
    ensures Decimal(n)[0] == '-' <==> n < 0
  {
    var digits := NatToDecimal(if n < 0 then -n else n);
    ParseNatToDecimal(if n < 0 then -n else n);
    assert digits[0] != '-' by { assert IsDigit(digits[0]); }
    if n < 0 {
      var s := Decimal(n);
      assert s == "-" + digits;
      assert s[1..] == digits;
      assert |s| >= 2 && s[0] == '-' && AllDigits(s[1..]);
    } else {
      assert Decimal(n) == digits;
    }
  }

  lemma DecimalInjective(a: int, b: int)
    requires Decimal(a) == Decimal(b)
    ensures a == b
  {
    DecimalRoundTrip(a);
    DecimalRoundTrip(b);
  }
}

=== FILE: leases.dfy ===
/** Lease creation (file lease.go): the command that accepts a provider's bid, the
    handler that submits it, and what the caller gets back. Running the program and
    decoding its output are inputs. */
module Leases {
  import opened Errors
  import opened Cli
  import opened Types
  import opened Client
  import opened Deployments

  /** The create-lease command for the bid `seqs` of `provider`. */
  function CreateLeaseCommand(ak: AkashClient, env: Env, ext: Externals, seqs: Seqs, provider: string): (cmd: Command)
    ensures cmd.content ==
      [Program(ak.config.path)] + ["tx"] + ["market"] + ["lease"] + ["create"]
      + ["--dseq", seqs.dseq] + ["--gseq", seqs.gseq] + ["--oseq", seqs.oseq]
      + ["--provider", provider] + ["--owner", ak.config.accountAddress] + ["--from", ak.config.keyName]
      + ext.defaultGas
      + Unless(env, "AKASH_CHAIN_ID", ["--chain-id", ak.config.chainId])
      + Unless(env, "AKASH_KEYRING_BACKEND", ["--keyring-backend", ak.config.keyringBackend])
      + [Note(ak)] + ["-y"]
      + Unless(env, "AKASH_NODE", ["--node", ak.config.node])
      + ["-o", "json"]
  {
    var c := AkashCli(GetPath(ak));
    var c := Tx(c);
    var c := Market(c);
    var c := Lease(c);
    var c := Create(c);
    var c := SetDseq(c, seqs.dseq);
    var c := SetGseq(c, seqs.gseq);
    var c := SetOseq(c, seqs.oseq);
    var c := SetProvider(c, provider);
    var c := SetOwner(c, ak.config.accountAddress);
    var c := SetFrom(c, ak.config.keyName);
    var c := DefaultGas(c, ext);
    var c := SetChainId(c, env, ak.config.chainId);
    var c := SetKeyringBackend(c, env, ak.config.keyringBackend);
    var c := SetNote(c, ak.transactionNote);
    var c := AutoAccept(c);
    var c := SetNode(c, env, ak.config.node);
    OutputJson(c)
  }

  /** The fixed head of the create-lease command, grouped as the builder calls append it. */
  function LeaseHead(ak: AkashClient, seqs: Seqs, provider: string): (head: seq<string>)
    ensures head ==
      [Program(ak.config.path), "tx", "market", "lease", "create",
       "--dseq", seqs.dseq, "--gseq", seqs.gseq, "--oseq", seqs.oseq, "--provider", provider,
       "--owner", ak.config.accountAddress, "--from", ak.config.keyName]
  {
    [Program(ak.config.path)] + ["tx"] + ["market"] + ["lease"] + ["create"]
      + ["--dseq", seqs.dseq] + ["--gseq", seqs.gseq] + ["--oseq", seqs.oseq]
      + ["--provider", provider] + ["--owner", ak.config.accountAddress] + ["--from", ak.config.keyName]
  }

  /** The command starts with the subcommand and the bid it accepts, named by its three
      sequence numbers and its provider; the lease is owned by the configured account
      and signed with the configured key. */
  lemma LeaseCommandPrefix(ak: AkashClient, env: Env, ext: Externals, seqs: Seqs, provider: string)
    ensures IsPrefix(
      [Program(ak.config.path), "tx", "market", "lease", "create",
       "--dseq", seqs.dseq, "--gseq", seqs.gseq, "--oseq", seqs.oseq, "--provider", provider,
       "--owner", ak.config.accountAddress, "--from", ak.config.keyName],
      CreateLeaseCommand(ak, env, ext, seqs, provider).content)
  {
    var t := CreateLeaseCommand(ak, env, ext, seqs, provider).content;
    var head := LeaseHead(ak, seqs, provider);
    var s1 := Unless(env, "AKASH_CHAIN_ID", ["--chain-id", ak.config.chainId]);
    var s2 := Unless(env, "AKASH_KEYRING_BACKEND", ["--keyring-backend", ak.config.keyringBackend]);
    var s3 := Unless(env, "AKASH_NODE", ["--node", ak.config.node]);
    assert t == head + ext.defaultGas + s1 + s2 + [Note(ak)] + ["-y"] + s3 + ["-o", "json"];
    assert IsPrefix(head, head);
    AppendKeepsPrefix(head, head, ext.defaultGas);
    AppendKeepsPrefix(head, head + ext.defaultGas, s1);
    AppendKeepsPrefix(head, head + ext.defaultGas + s1, s2);
    AppendKeepsPrefix(head, head + ext.defaultGas + s1 + s2, [Note(ak)]);
    AppendKeepsPrefix(head, head + ext.defaultGas + s1 + s2 + [Note(ak)], ["-y"]);
    AppendKeepsPrefix(head, head + ext.defaultGas + s1 + s2 + [Note(ak)] + ["-y"], s3);
    AppendKeepsPrefix(head, head + ext.defaultGas + s1 + s2 + [Note(ak)] + ["-y"] + s3, ["-o", "json"]);
  }

  /** The handler `CreateLease` submits: run the command, parse its output once with
      `json.Unmarshal` and once more with a decoder, and hand back the hash. The first
      stage that fails gives the error, with `""` as the id. */
  function LeaseHandler(raw: Result<string>, unmarshalled: Result<Transaction>, decoded: Result<Transaction>): (h: HandlerOutcome)
    ensures h.err.None? <==> raw.Ok? && unmarshalled.Ok? && decoded.Ok?
    ensures h.err.None? ==> h.txId == decoded.value.txHash
    ensures raw.Err? ==> h == HandlerOutcome("", Some(raw.error))
    ensures raw.Ok? && unmarshalled.Err? ==> h == HandlerOutcome("", Some(unmarshalled.error))
    ensures raw.Ok? && unmarshalled.Ok? && decoded.Err? ==> h == HandlerOutcome("", Some(decoded.error))
  {
    if raw.Err? then HandlerOutcome("", Some(raw.error))
    else if unmarshalled.Err? then HandlerOutcome("", Some(unmarshalled.error))
    else if decoded.Err? then HandlerOutcome("", Some(decoded.error))
    else HandlerOutcome(decoded.value.txHash, None)
  }

  /** `CreateLease`'s two results: the program's raw output, and the error. */
  datatype LeaseOutcome = LeaseOutcome(output: string, err: Option<Error>)

  /** Creating a lease hands back the raw output exactly when the submission went through:
      the caller was still waiting, the program ran, its output parsed both times and the
      transaction was confirmed; otherwise the output is `""` and the error is reported. */
  function CreateLease(raw: Result<string>, unmarshalled: Result<Transaction>, decoded: Result<Transaction>,
                       polls: seq<PollOutcome>, callerReads: bool): (r: LeaseOutcome)
    ensures r.err.None? <==>
      callerReads && raw.Ok? && unmarshalled.Ok? && decoded.Ok? && Poll(polls).verdict == Confirmed
    ensures r.err.None? ==> r.output == raw.value
    ensures r.err.Some? ==> r.output == ""
    ensures !callerReads ==> r.err == Some(TimeoutError)
    ensures callerReads && raw.Err? ==> r.err == Some(raw.error)
    ensures callerReads && raw.Ok? && unmarshalled.Err? ==> r.err == Some(unmarshalled.error)
    ensures callerReads && raw.Ok? && unmarshalled.Ok? && decoded.Err? ==> r.err == Some(decoded.error)
    ensures callerReads && raw.Ok? && unmarshalled.Ok? && decoded.Ok? && Poll(polls).verdict != Confirmed ==>
      r.err == VerdictError(Poll(polls).verdict)
  {
    var err := WaitForTransaction(TxRequest(LeaseHandler(raw, unmarshalled, decoded), polls, callerReads));
    if err.Some? then LeaseOutcome("", err) else LeaseOutcome(raw.value, None)
  }
}

=== FILE: provider.dfy ===
/** The Terraform provider's configuration step (package `akash`, file provider.go):
    the provider schema's settings and their defaults, the check that every required
    setting has a value, and the client built from the settings. */
module Akash {
  import opened Client

  const KeyName := "key_name"
  const KeyringBackend := "keyring_backend"
  const AccountAddress := "account_address"
  const Net := "net"
  const ChainVersion := "chain_version"
  const ChainId := "chain_id"
  const Node := "node"
  const Home := "home"
  const Path := "path"
  const ProvidersApi := "providers_api"
  const DepositorAccount := "depositor_account"
  const FeeAccount := "fee_account"

  /** The settings that must have a value before a client is built. */
  const ValidatedKeys: set<string> :=
    {KeyName, KeyringBackend, AccountAddress, Net, ChainVersion, ChainId, Node, Home, Path, ProvidersApi}

  /** The note every transaction the provider submits carries. */
  const ProviderTransactionNote := "Akash Terraform Provider"

  // ---------------------------------------------------------------------------
  // Schema

  /** One optional string setting: the environment variable it falls back to, and the
      value used when that variable is unset too. */
  datatype SchemaField = SchemaField(envVariable: string, default: string)

  /** The provider's settings by key; the home default is the user's home directory
      with `/.akash` appended. */
  function Schema(homeDir: string): (fields: map<string, SchemaField>)
    ensures fields.Keys == ValidatedKeys + {DepositorAccount, FeeAccount}
  {
    map[
      KeyName := SchemaField("AKASH_KEY_NAME", ""),
      KeyringBackend := SchemaField("AKASH_KEYRING_BACKEND", "os"),
      AccountAddress := SchemaField("AKASH_ACCOUNT_ADDRESS", ""),
      Net := SchemaField("AKASH_NET", "mainnet"),
      ChainVersion := SchemaField("AKASH_VERSION", ""),
      ChainId := SchemaField("AKASH_CHAIN_ID", ""),
      Node := SchemaField("AKASH_NODE", ""),
      Home := SchemaField("AKASH_HOME", homeDir + "/.akash"),
      Path := SchemaField("AKASH_PATH", "provider-services"),
      ProvidersApi := SchemaField("PROVIDERS_API", "http://providers-api.quasarch.cloud"),
      DepositorAccount := SchemaField("AKASH_DEPOSITOR_ACCOUNT", ""),
      FeeAccount := SchemaField("AKASH_FEE_ACCOUNT", "")]
  }

  /** The keyring backend defaults to `os`, the network to `mainnet`, the program to
      `provider-services` and the home directory to `.akash` under the user's home;
      the key name, account address and node have no usable default, so an unset one
      fails validation. */
  lemma SchemaDefaults(homeDir: string)
    ensures Schema(homeDir)[KeyringBackend].default == "os"
    ensures Schema(homeDir)[Net].default == "mainnet"
    ensures Schema(homeDir)[Path].default == "provider-services"
    ensures Schema(homeDir)[Home].default == homeDir + "/.akash"
    ensures Schema(homeDir)[ProvidersApi].default == "http://providers-api.quasarch.cloud"
    ensures Schema(homeDir)[KeyName].default == ""
    ensures Schema(homeDir)[AccountAddress].default == ""
    ensures Schema(homeDir)[Node].default == ""
  {
  }

  // ---------------------------------------------------------------------------
  // Validation

  datatype Severity = Error | Warning

  datatype Diagnostic = Diagnostic(severity: Severity, summary: string, detail: string)

  const MissingParameterSummary := "Unable to create Akash client"

  const MissingParameterDetailStart := "Parameter '"

  /** The error diagnostic for a setting that has no value. */
  function MissingParameter(key: string): (d: Diagnostic)
    ensures d.severity == Error
    ensures d.summary == MissingParameterSummary
  {
    Diagnostic(Error, MissingParameterSummary,
      MissingParameterDetailStart + key + "' was not provided and is not available on the system")
  }

  /** The diagnostic names its setting: the key can be read back from the detail, so
      different settings give different diagnostics. */
  lemma MissingParameterNamesKey(key: string, other: string)
    ensures MissingParameter(key).detail[|MissingParameterDetailStart|..|MissingParameterDetailStart| + |key|] == key
    ensures MissingParameter(key) == MissingParameter(other) ==> key == other
  {
    var n := |MissingParameterDetailStart|;
    var d := MissingParameter(key).detail;
    assert d[n..n + |key|] == key;
    if MissingParameter(key) == MissingParameter(other) {
      var e := MissingParameter(other).detail;
      assert |key| == |other|;
      assert e[n..n + |other|] == other;
    }
  }

  /** Every setting of the map has a value. */
  predicate AllProvided(config: map<string, string>) {
    forall k :: k in config ==> config[k] != ""
  }

  /** The check that every setting has a value: it visits the settings in an order
      it does not fix, and at the first empty one appends a single diagnostic naming it
      and fails. When all have values the diagnostics handed back are empty. */
  method ValidateConfiguration(diags: seq<Diagnostic>, config: map<string, string>)
    returns (out: seq<Diagnostic>, valid: bool)
    ensures valid <==> AllProvided(config)
    ensures valid ==> out == []
    ensures !valid ==> exists k :: k in config && config[k] == "" && out == diags + [MissingParameter(k)]
  {
    var remaining := config.Keys;
    while remaining != {}
      invariant remaining <= config.Keys
      invariant forall k :: k in config && k !in remaining ==> config[k] != ""
      decreases |remaining|
    {
      var k :| k in remaining;
      if config[k] == "" {
        return diags + [MissingParameter(k)], false;
      }
      remaining := remaining - {k};
    }
    return [], true;
  }

  // ---------------------------------------------------------------------------
  // Configuring the provider

  /** The settings as the provider reads them, after defaults are applied. */
  type ResourceData = map<string, string>

  /** A setting's value; one that was never set reads as the empty string. */
  function GetString(d: ResourceData, key: string): (v: string)
    ensures key in d ==> v == d[key]
    ensures key !in d ==> v == ""
  {
    if key in d then d[key] else ""
  }

  /** The settings that are validated, keyed as in the schema. */
  function ValidatedConfig(d: ResourceData): (config: map<string, string>)
    ensures config.Keys == ValidatedKeys
    ensures forall k :: k in config ==> config[k] == GetString(d, k)
  {
    map k | k in ValidatedKeys :: GetString(d, k)
  }

  /** The client configuration: the validated settings, and the two accounts read
      directly, without validation. */
  function ConfigurationOf(config: map<string, string>, d: ResourceData): (c: Configuration)
    requires ValidatedKeys <= config.Keys
    ensures c.keyName == config[KeyName] && c.keyringBackend == config[KeyringBackend]
    ensures c.accountAddress == config[AccountAddress] && c.net == config[Net]
    ensures c.version == config[ChainVersion] && c.chainId == config[ChainId]
    ensures c.node == config[Node] && c.home == config[Home]
    ensures c.path == config[Path] && c.providersApi == config[ProvidersApi]
    ensures c.depositorAccount == GetString(d, DepositorAccount)
    ensures c.feeAccount == GetString(d, FeeAccount)
  {
    Configuration(
      config[KeyName], config[KeyringBackend], config[AccountAddress], config[Net],
      config[ChainVersion], config[ChainId], config[Node], config[Home], config[Path],
      config[ProvidersApi], GetString(d, DepositorAccount), GetString(d, FeeAccount))
  }

  /** The two accounts are not validated: whatever they are set to, empty included,
      the validated settings stay the same and so does the verdict on them. */
  lemma AccountsNotValidated(d: ResourceData, depositor: string, fee: string)
    ensures DepositorAccount !in ValidatedKeys && FeeAccount !in ValidatedKeys
    ensures ValidatedConfig(d[DepositorAccount := depositor][FeeAccount := fee]) == ValidatedConfig(d)
  {
    var d' := d[DepositorAccount := depositor][FeeAccount := fee];
    forall k | k in ValidatedKeys
      ensures GetString(d', k) == GetString(d, k)
    {
      assert k != DepositorAccount && k != FeeAccount;
    }
  }

  /** The result of configuring the provider: a client, or only diagnostics. */
  datatype Configured =
    | Configured(client: AkashClient, diags: seq<Diagnostic>)
    | NotConfigured(diags: seq<Diagnostic>)

  /** Configuring the provider builds a client exactly when none of the ten validated
      settings is empty; the client then holds the settings, the two accounts as given
      (empty or not), an empty queue and the provider's note. Otherwise the only
      diagnostic names an empty validated setting. */
  method ProviderConfigure(d: ResourceData) returns (r: Configured)
    ensures r.Configured? <==> forall k :: k in ValidatedKeys ==> GetString(d, k) != ""
    ensures r.Configured? ==> r.diags == []
    ensures r.Configured? ==> r.client.config == ConfigurationOf(ValidatedConfig(d), d)
    ensures r.Configured? ==> r.client.transactionNote == ProviderTransactionNote
    ensures r.Configured? ==> r.client.queue == [] && r.client.queueCapacity == QueueCapacity
    ensures r.NotConfigured? ==>
      exists k :: k in ValidatedKeys && GetString(d, k) == "" && r.diags == [MissingParameter(k)]
  {
    var config := ValidatedConfig(d);
    var diags, valid := ValidateConfiguration([], config);
    if !valid {
      return NotConfigured(diags);
    }
    var configuration := ConfigurationOf(config, d);
    var ak := New(configuration);
    ak := SetGlobalTransactionNote(ak, ProviderTransactionNote);
    return Configured(ak, []);
  }
}

=== FILE: types.dfy ===
/** Decoded ledger transaction records (package `types`) and the queries the
    client runs on them: failure classification, attribute lookup and event filtering. */
module Types {
  import opened Errors

  datatype Attribute = Attribute(key: string, value: string)

  datatype Event = Event(eventType: string, attributes: seq<Attribute>)

  datatype Log = Log(events: seq<Event>)

  datatype Transaction = Transaction(height: string, txHash: string, logs: seq<Log>, rawLog: string)

  /** The Go zero value of a transaction record, before anything was decoded into it. */
  const ZeroTransaction := Transaction("", "", [], "")

  const AttributeNotFound := Error("attribute not found")

  /** The two results of an attribute lookup: the value, and the error (None is nil). */
  datatype Lookup = Lookup(value: string, err: Option<Error>)

  /** A record is failed exactly when it carries no logs; no other field matters. */
  function Failed(t: Transaction): (failed: bool)
    ensures failed <==> t.logs == []
  {
    |t.logs| == 0
  }

  predicate HasKey(attrs: seq<Attribute>, key: string) {
    exists i :: 0 <= i < |attrs| && attrs[i].key == key
  }

  /** `i` is the position of the first attribute whose key is `key`. */
  predicate FirstWithKey(attrs: seq<Attribute>, key: string, i: int) {
    && 0 <= i < |attrs|
    && attrs[i].key == key
    && forall j :: 0 <= j < i ==> attrs[j].key != key
  }

  /** First-match lookup: the value of the first attribute with the key; `""` and
      "attribute not found" exactly when no attribute has it. */
  function Get(attrs: seq<Attribute>, key: string): (r: Lookup)
    ensures r.err.None? <==> HasKey(attrs, key)
    ensures r.err.None? ==> exists i :: FirstWithKey(attrs, key, i) && r.value == attrs[i].value
    ensures r.err.Some? ==> r == Lookup("", Some(AttributeNotFound))
    decreases |attrs|
  {
    if attrs == [] then Lookup("", Some(AttributeNotFound))
    else if attrs[0].key == key then Lookup(attrs[0].value, None)
    else
      var rest := Get(attrs[1..], key);
      assert forall j :: 0 <= j < |attrs| - 1 ==> attrs[1..][j] == attrs[j + 1];
      assert rest.err.None? ==> exists i :: FirstWithKey(attrs, key, i) && rest.value == attrs[i].value by {
        if rest.err.None? {
          var i :| FirstWithKey(attrs[1..], key, i) && rest.value == attrs[1..][i].value;
          assert FirstWithKey(attrs, key, i + 1);
        }
      }
      rest
  }

  // ---------------------------------------------------------------------------
  // Event filtering

  /** All events of all logs, log by log and in each log in order. */
  function AllEvents(logs: seq<Log>): seq<Event>
    decreases |logs|
  {
    if logs == [] then [] else AllEvents(logs[..|logs| - 1]) + logs[|logs| - 1].events
  }

  /** The events of the given type, in their original order. */
  function OfType(events: seq<Event>, eventType: string): seq<Event>
    decreases |events|
  {
    if events == [] then []
    else
      var last := events[|events| - 1];
      OfType(events[..|events| - 1], eventType) + (if last.eventType == eventType then [last] else [])
  }

  lemma {:induction false} OfTypeConcat(a: seq<Event>, b: seq<Event>, eventType: string)
    ensures OfType(a + b, eventType) == OfType(a, eventType) + OfType(b, eventType)
    decreases |b|
  {
    if b == [] {
      assert a + b == a;
    } else {
      var b' := b[..|b| - 1];
      assert (a + b)[..|a + b| - 1] == a + b';
      assert (a + b)[|a + b| - 1] == b[|b| - 1];
      OfTypeConcat(a, b', eventType);
    }
  }

  /** The events of type `eventType` across all logs, in log-major then event order;
      an empty result when there are no logs. */
  method GetEventsByType(t: Transaction, eventType: string) returns (matches: seq<Event>)
    ensures matches == OfType(AllEvents(t.logs), eventType)
    ensures t.logs == [] ==> matches == []
  {
    if |t.logs| == 0 {
      return [];
    }
    matches := [];
    var i := 0;
    while i < |t.logs|
      invariant 0 <= i <= |t.logs|
      invariant matches == OfType(AllEvents(t.logs[..i]), eventType)
    {
      var events := t.logs[i].events;
      var j := 0;
      while j < |events|
        invariant 0 <= j <= |events|
        invariant matches == OfType(AllEvents(t.logs[..i]), eventType) + OfType(events[..j], eventType)
      {
        assert events[..j + 1][..j] == events[..j];
        if events[j].eventType == eventType {
          matches := matches + [events[j]];
        }
        j := j + 1;
      }
      assert events[..j] == events;
      assert t.logs[..i + 1][..i] == t.logs[..i];
      OfTypeConcat(AllEvents(t.logs[..i]), events, eventType);
      i := i + 1;
    }
    assert t.logs[..i] == t.logs;
  }

  /** An event is in the filter's result exactly when it occurs among the inputs with
      the requested type. */
  lemma {:induction false} OfTypeMembers(events: seq<Event>, eventType: string, e: Event)
    ensures e in OfType(events, eventType) <==> e in events && e.eventType == eventType
    decreases |events|
  {
    if events != [] {
      var init := events[..|events| - 1];
      OfTypeMembers(init, eventType, e);
      assert events == init + [events[|events| - 1]];
    }
  }

  /** The filter keeps every matching occurrence, however often it repeats, and nothing else. */
  lemma {:induction false} OfTypeCounts(events: seq<Event>, eventType: string, e: Event)
    ensures multiset(OfType(events, eventType))[e] ==
      if e.eventType == eventType then multiset(events)[e] else 0
    decreases |events|
  {
    if events != [] {
      var init := events[..|events| - 1];
      OfTypeCounts(init, eventType, e);
      assert events == init + [events[|events| - 1]];
    }
  }

  /** The filter never returns more events than it was given. */
  lemma {:induction false} OfTypeLength(events: seq<Event>, eventType: string)
    ensures |OfType(events, eventType)| <= |events|
    decreases |events|
  {
    if events != [] {
      OfTypeLength(events[..|events| - 1], eventType);
    }
  }

  /** Total number of events across the logs. */
  function EventCount(logs: seq<Log>): nat
    decreases |logs|
  {
    if logs == [] then 0 else EventCount(logs[..|logs| - 1]) + |logs[|logs| - 1].events|
  }

  lemma {:induction false} AllEventsLength(logs: seq<Log>)
    ensures |AllEvents(logs)| == EventCount(logs)
    decreases |logs|
  {
    if logs != [] {
      AllEventsLength(logs[..|logs| - 1]);
    }
  }

  /** `GetEventsByType` returns at most as many events as the logs hold in all. */
  lemma EventsByTypeBound(t: Transaction, eventType: string)
    ensures |OfType(AllEvents(t.logs), eventType)| <= EventCount(t.logs)
  {
    OfTypeLength(AllEvents(t.logs), eventType);
    AllEventsLength(t.logs);
  }
}
